=== FILE: README.md ===
# Timeline page: placement, ordinals and carousels in Dafny

This project models the logic of the timeline page's `script.js`. The page loads a list of
events, which are single **dates** and spanning **periods**. It lays them out on CSS grid rows
and gives each event an expandable details region with an image **carousel**. Three pieces of
pure logic sit inside the DOM code, and the model lifts each one into Dafny:

- **Day ordinals** (`ordinals.dfy`, `membership.dfy`). `extractDay` lower-cases a free-text label
  and finds the first match of "digits immediately followed by st, nd, rd or th". The result is
  the value of those digits, or 0 when there is no match. The regular expression has no word
  boundary, so "5stars" gives 5. The three membership predicates then compare the day numbers
  as integers. The model writes the search as a scan over `seq<char>` (`FindFrom`). It proves
  the scan equal to the leftmost-match semantics of the pattern (`MatchesAt`, `FirstMatch`).
  Lower-casing is ASCII only.
- **Row placement** (`layout.dfy`). This is the body of `renderTimeline`. It is a pure function
  from the event list to the emitted `(event, placement)` pairs in DOM insertion order. A
  placement is `Row(r)` for a date, `Span(start, span)` for a period, or `Auto` for the
  no-period fallback. A running `currentRow` is threaded through three stages:
  - the dates before the first period;
  - each period followed by its dates;
  - the dates after the last period.
  `EmissionOrder` is an independent reference for the order, stated on events alone.
  `LayoutMultiplicity` counts how often each event is emitted. The source's quirks follow from
  it:
  - a date between two periods is dropped;
  - a date inside two overlapping periods is emitted at least twice;
  - with unsorted periods, a date can be emitted both before the first period and inside a
    later one;
  - an event of unknown type is dropped once any period exists.
- **Carousel and toggle** (`carousel.dfy`, `items.dfy`). `createCarousel` is modelled as abstract
  markup: image tags, indicator tags and a buttons flag. A mounted carousel is a record with
  - the images' and indicators' active flags;
  - the buttons flag;
  - the `currentIndex` of every handler set that `initializeCarousel` has registered.

  A click on a control runs every registered handler set in registration order. `Item` models
  the details region: the expanded flag, whether the item has the click toggle, and its
  carousel. A click's origin is either a carousel control or anywhere else.

`seqs.dfy` holds `Filter` (`Array.prototype.filter`), and `events.dfy` holds the event record.
A missing `images` list is modelled as empty and a missing `rotate` as 0.

Two behaviours of the code that the model keeps as they are:
- With no period, the code appends every event, whatever its type, and sets no row. The model
  gives all of them `Auto`.
- The code calls `initializeCarousel` on every collapsed-to-expanded transition of a date.
  `ClickItem` models that, and Findings shows how it stops `next` from advancing the shown image.

## Model

| member | source | states |
|---|---|---|
| `Ordinals.Lower` | script.js:133-135 | `toLowerCase` on ASCII: each character is folded on its own, no upper-case letter remains, digits and non-letters are kept. What a letter becomes is stated by `Ordinals.LowerCharFolds` |
| `Ordinals.LowerCharFolds` | script.js:133-135 | an upper-case letter 'A'..'Z' becomes the letter at the same position in 'a'..'z' |
| `Ordinals.LowerIdempotent` | script.js:146 | lower-casing an already lower-cased label changes nothing |
| `Ordinals.FindFrom` | script.js:159 | the regex search from a position: a reported match lies within the label. Its full meaning is stated by `Ordinals.FindFromFindsFirst` |
| `Ordinals.DigitsValue` | script.js:160 | `parseInt` of a digit run: the base-10 value, so "12" gives 12 (`Ordinals.ExtractDayExamples`) |
| `Ordinals.DayOf` | script.js:138-140 | `extractDay(label.toLowerCase())` as all three predicates compute it (also lines 146-147 and 152-153). Its properties are stated by `Ordinals.DayOfAt` and `Ordinals.DayOfIgnoresCase` |
| `Ordinals.ExtractDay` | script.js:157-161 | `extractDay` on a lower-cased label. Its meaning is stated by `Ordinals.ExtractDayIsFirstMatch` |
| `Ordinals.RunEnd` | script.js:159 | the greedy `\d+` group: the digit run starting at `i` ends at the first non-digit or at the end of the label |
| `Ordinals.FindFromFindsFirst` | script.js:159 | the scan reports a match exactly when the pattern matches. The reported start is the leftmost, and the digit run ending there is the only one a suffix can follow |
| `Ordinals.ExtractDayIsFirstMatch` | script.js:157-161 | `extractDay` is the value of the digits of the leftmost match, and 0 when the label has no match |
| `Ordinals.DayOfIgnoresCase` | script.js:133-135 | a label and its lower-cased form have the same day, so letter case never changes a comparison |
| `Ordinals.LowerKeepsMatch` | script.js:146 | lower-casing keeps digits in place, so "4TH" matches like "4th" |
| `Ordinals.DayOfAt` | script.js:146-161 | a label whose first digit run is followed by a suffix in either letter case has the value of that run as its day |
| `Ordinals.JanuaryFourth` | script.js:158 | "January 4th", "Evening of January 4th" and "January 4TH" all give day 4 |
| `Ordinals.ExtractDayExamples` | script.js:159-160 | a label without a match gives 0, and "5stars" and "x12th" match because there is no word boundary |
| `Membership.InPeriod` | script.js:131-143 | `isDateInPeriod`: the date's day lies in the period's inclusive day range. `Membership.ExactlyOneRelation` relates it to the other two |
| `Membership.BeforePeriod` | script.js:145-149 | `isDateBeforePeriod`: the date's day is strictly below the period's start day |
| `Membership.AfterPeriod` | script.js:151-155 | `isDateAfterPeriod`: the date's day is strictly above the period's end day |
| `Membership.ExactlyOneRelation` | script.js:131-155 | when a period's start day is at most its end day, exactly one of before, in and after holds for any date |
| `Membership.InvertedPeriod` | script.js:142 | an inverted period contains no date, and a day between its labels counts as both before and after it |
| `Membership.UnparsedDateIsEarly` | script.js:145-149 | a date label without an ordinal counts as day 0, so it is before every period starting after day 0 |
| `Membership.FirstToTenth` | script.js:131-155 | a period from "1st" to "10th" contains day 5, with day 0 before it and day 15 after it |
| `Seqs.Filter` | script.js:47-48 | `Array.prototype.filter`: no longer than the input, and every kept element satisfies the predicate. `Seqs.FilterCount` gives the counts |
| `Seqs.FilterConcat` | script.js:47-48 | filtering a concatenation is the concatenation of the filtered parts, so the kept elements stay in input order |
| `Seqs.FilterSingle` | script.js:47-48 | a single element is kept exactly when it satisfies the predicate |
| `Seqs.FilterCount` | script.js:47-48 | filtering keeps every occurrence of a selected element and none of the others |
| `Seqs.FilterEmpty` | script.js:51 | the filtered list is empty exactly when no element satisfies the predicate |
| `Layout.PlaceGroup` | script.js:69-79 | k dates placed from `currentRow = r` get rows r, r+2, …, r+2(k−1), leaving `currentRow` at r+2k−1, or at r when k = 0. The in-period and post-period groups use the same rule |
| `Layout.Periods` | script.js:47 | the `type === 'period'` events, in input order (`Seqs.Filter`) |
| `Layout.Dates` | script.js:48 | the `type === 'date'` events, in input order (`Seqs.Filter`) |
| `Layout.DatesIn` | script.js:64 | the dates inside one period. Their counts are stated by `Layout.DatesInCount` |
| `Layout.DatesInCount` | script.js:64 | a date occurs among a period's dates as often as among all dates when it lies in the period, and never otherwise |
| `Layout.DatesBefore` | script.js:65 | the dates before the first period. Their counts are stated by `Layout.DatesBeforeAfterCount` |
| `Layout.DatesAfter` | script.js:116 | the dates after the last period. Their counts are stated by `Layout.DatesBeforeAfterCount` |
| `Layout.DatesBeforeAfterCount` | script.js:65-116 | a date occurs before the first period, or after the last, as often as among all dates when the comparison holds, and never otherwise |
| `Layout.PlacePeriod` | script.js:64-111 | one iteration of the `periods.forEach` loop: the period with the dates inside it. Its rows are stated by `Layout.PeriodSpan` |
| `Layout.PeriodWith` | script.js:82-111 | one period item followed by its dates. Its rows are stated by `Layout.PeriodWithSpan` and `Layout.PeriodSpan` |
| `Layout.PeriodWithSpan` | script.js:82-111 | a period item spans `max(2k−1, 1)` rows, its k dates sit on every other row from its start, and `currentRow` ends one past the group |
| `Layout.PlacePeriods` | script.js:62-112 | the `periods.forEach` loop. Its order is stated by `Layout.PlacePeriodsOrder`, its rows by `Layout.PeriodsRows`, and where each period starts and where `currentRow` ends by `Layout.PeriodsNext` and `Layout.PeriodsPlaced` |
| `Layout.PlacePeriodsOrder` | script.js:62-112 | the loop emits each period followed by the dates inside it, period by period |
| `Layout.PeriodsRows` | script.js:62-112 | the loop's items lie between its starting row and its final `currentRow`, and no two of them collide |
| `Layout.PeriodsNext` | script.js:62-112 | the loop started on row r ends with `currentRow` at r plus each period's gap: 2k rows for a period holding k > 0 dates, and 1 row for an empty period (lines 99-111). It emits one item per period plus one per date inside it |
| `Layout.ChainOf` | script.js:62-112 | the loop equals the same loop run over the groups of dates computed up front for each period (line 64) |
| `Layout.ChainNext` | script.js:82-111 | over given groups, the loop's final `currentRow` and item count are the sums of each group's gap and size |
| `Layout.ChainPlaced` | script.js:82-103 | over given groups, the i-th period's span starts on r plus the gaps of the periods before it, and follows exactly their items. Its t-th date lies 2(t−1) rows below that start |
| `Layout.PeriodsPlaced` | script.js:82-103 | in the loop started on row r, the i-th period (from 0) follows the items of the periods before it. Its span of `max(2k−1, 1)` rows starts on r plus their gaps, and its t-th date sits 2(t−1) rows below that |
| `Layout.BlockIs` | script.js:82-111 | one period group equals its closed form: the span first, then date t on the span's start row + 2(t−1), then `currentRow` one gap past the start |
| `Layout.Place` | script.js:44-127 | the whole placement with the final `currentRow`. Its stages are stated by `Layout.PlaceStages`, `Layout.PlaceMiddle` and `Layout.FirstOnRowOne`, and its other properties by the lemmas below |
| `Layout.PlaceStages` | script.js:59-127 | with a period, the dates before the first period take rows 1, 3, 5, …, and the dates after the last take every other row from 1 + (2b−1 for b > 0 early dates, else 0) plus every period's gap. Between them come exactly the loop's items. The final `currentRow` is one row past the last late date, or the late start when there is none |
| `Layout.PlaceMiddle` | script.js:59-112 | with a period, the items right after the early dates are exactly the periods loop, started on the row after the early dates' group. With `Layout.PeriodsPlaced` this fixes the start row of every period's span |
| `Layout.FirstOnRowOne` | script.js:59-91 | with a period, the first item is on row 1. It is an early date when one exists, and otherwise the first period's span |
| `Layout.Emitted` | script.js:44-127 | the items appended to the timeline, in order |
| `Layout.PeriodSpan` | script.js:82-111 | a period spans `max(2k−1, 1)` rows from the current row. Its k dates follow it, the first on the span's first row and the last on its last row. Afterwards `currentRow` is one past the group's end, whether or not k = 0 |
| `Layout.LayoutEmissionOrder` | script.js:47-127 | the emitted events equal the reference order. That order is: dates before the first period, then each period followed by its dates, then dates after the last period. With no period it is the input itself |
| `Layout.Render` | script.js:33-57 | an empty list renders only the empty placeholder. A non-empty list renders items in the reference order, never the error placeholder |
| `Layout.RenderLoad` | script.js:13-42 | a failed load renders only the error placeholder. A successful empty load renders only the empty placeholder |
| `Layout.NoPeriodFallback` | script.js:51-56 | with no period in the input, every event is emitted in input order without a row. With a period, every item gets one |
| `Layout.LayoutRows` | script.js:59-127 | with a period, every row and span lies in [1, final `currentRow`). No two items collide: date rows strictly increase, a date before a span ends above it, two periods' spans are disjoint, and a date whose row falls in a span of n rows has only dates between it and that period and is among the (n+1)/2 items right after it, which are that period's own dates (`Layout.PeriodSpan`) |
| `Layout.GroupsCount` | script.js:62-104 | the period stage emits each period once per occurrence, and each date once per period containing it |
| `Layout.LayoutMultiplicity` | script.js:62-127 | with a period, a period is emitted as often as it occurs. A date is emitted once per group whose predicate it satisfies: before the first period, inside each period, after the last. Any other event is never emitted |
| `Layout.DateBetweenPeriodsDropped` | script.js:64-65 | a date after the first period's start, before the last period's end and in no period is not rendered |
| `Layout.OverlapDuplicatesDate` | script.js:62-64 | a date inside two periods is rendered at least twice |
| `Layout.UnknownKindDropped` | script.js:47-48 | once a period exists, an event of any other type is not rendered |
| `Carousel.Rotation` | script.js:218-219 | a transform of `rotate*90` degrees exists exactly when `rotate` is positive |
| `Carousel.CreateCarousel` | script.js:214-243 | no markup without images. Otherwise: one image per input image in order, only image 0 active, every image with the same rotation. Buttons exist exactly when there is more than one image, and so do indicators, one per image with its own index and only indicator 0 active |
| `Carousel.Mount` | script.js:221-227 | the carousel as inserted into the page. Its state is stated by `Carousel.MountShowsFirst` |
| `Carousel.MountShowsFirst` | script.js:221-227 | freshly inserted markup shows exactly image 0 and indicator 0, with no handlers yet |
| `Carousel.Step` | script.js:269-290 | `next` goes to c+1, wrapping to 0. `prev` goes to c−1, wrapping to n−1. An indicator selects its own index. The result stays in [0, n) |
| `Carousel.ShowImage` | script.js:258-267 | after `showImage(i)` exactly image i and indicator i are active, and nothing else changes |
| `Carousel.Initialize` | script.js:246-256 | with at most one image nothing is registered. Otherwise one handler set is added at index 0 and the active flags stay as they are |
| `Carousel.Click` | script.js:269-290 | a click moves every registered handler set by one step from its own index. The shown image is the one the newest set chose, and nothing changes without handlers |
| `Carousel.Fire` | script.js:269-290 | the listeners of a clicked control run in registration order. Each handler set from position k on takes one step from its own index, and the earlier ones are untouched |
| `Carousel.Navigate` | script.js:269-290 | after any sequence of clicks on a carousel with a handler set, exactly one image and one indicator are active: the ones the newest handler set points at |
| `Carousel.NavigateNext` | script.js:277-282 | k clicks on `next` move every handler set k steps forward from its own index |
| `Carousel.NextRoundTrip` | script.js:277-282 | as many clicks on `next` as there are images return every handler set to its index and show the starting image again |
| `Carousel.PrevUndoesNext` | script.js:272-280 | `prev` undoes `next` and `next` undoes `prev` |
| `Carousel.NextCycle` | script.js:277-282 | n clicks on `next` return a handler set to its starting index |
| `Events.DateText` | script.js:169-171 | a period shows "start - end" and any other event shows its start label |
| `Items.CreateItem` | script.js:164-211 | a period starts expanded without a toggle, with its carousel initialised once. A date starts collapsed with a toggle. A carousel exists exactly when there are images, and it shows image 0 |
| `Items.ClickControl` | script.js:192-194 | a click on a carousel control never changes the expanded flag |
| `Items.ClickItem` | script.js:189-202 | a click from a control leaves the flag unchanged. Any other click flips a date's flag. Each flip to expanded, when there are several images, appends one handler set starting at index 0. The older sets and the active image and indicator stay as they were |
| `Items.ExpansionsAccumulateHandlers` | script.js:196-201 | after k plain clicks, a date with several images is expanded exactly when k is odd and holds (k+1)/2 handler sets |
| `Items.ReexpandedNextIsStuck` | script.js:199-201 | as written: expand, next, collapse, expand, next leaves image 1 shown, with handler sets at [2, 1] |
| `Items.ClickItemOnce` | script.js:189-202 | the corrected handler initialises only when no handler set exists. It keeps a single handler set that agrees with the shown image |
| `Items.ClicksOnce` | script.js:189-202 | under the corrected handler, any click sequence keeps at most one handler set |
| `Items.CreatedItemIsSynced` | script.js:164-208 | a new item satisfies the invariant the corrected handler keeps |
| `Items.OnceNavigationMoves` | script.js:269-283 | under the corrected handler, `next` and `prev` on an expanded date always move the shown image one step |
| `Items.OnceReexpandedNextMoves` | script.js:199-201 | corrected: the same five clicks end with image 2 shown |

## Findings

| source | as written | input that shows it | evidently intended | confidence | as-written member | corrected member |
|---|---|---|---|---|---|---|
| script.js:199-201 | each collapsed-to-expanded transition of a date calls `initializeCarousel` again. That registers another handler set whose index starts at 0, while the shown image stays where it was | a date with three images: click the content, click `next`, click the content twice, click `next` | the carousel is initialised once per mount, so `next` always advances the shown image | medium; not executed | `Items.ReexpandedNextIsStuck` | `Items.ClickItemOnce` |

In the as-written click sequence, the second `next` moves the old handler set from 1 to 2 and shows
image 2. The new handler set then moves from 0 to 1 and shows image 1, so the click appears to
do nothing. `Items.ClickItemOnce` keeps a single handler set. `Items.OnceNavigationMoves` proves
that `next` then always advances the shown image, and `Items.OnceReexpandedNextMoves` replays
the same clicks.

## Left out

- `loadEventsFromJSON`, the `DOMContentLoaded` hook and `console.error` are left out, because
  they are fetch and JSON parsing I/O. `Layout.Load` carries only the outcome, `Loaded(events)`
  or `LoadFailed`.
- An exception raised while rendering, such as a period without `endDate`, is left out. In the
  source the `catch` would replace a partly rendered timeline with the error placeholder. The
  model gives every event a string `endDate`.
- HTML strings, `innerHTML`, `querySelector`, `appendChild` and CSS `gridRow` strings are left
  out. Output is abstract placements and carousel records, and the absence of HTML escaping is
  not modelled.
- Event propagation (`stopPropagation`, `closest`) is reduced to the click's `Origin`.
- `Items.CreateItem`: the source defers a period's carousel initialisation with `setTimeout`.
  The model applies it at once, because scheduling is outside a sequential model.
- `initializeCarousel` finds its carousel by a document-wide `data-event-id` query, which
  duplicate ids make ambiguous. The model gives each item its own carousel.
- `Ordinals.DigitsValue` uses unbounded integers, not JavaScript number precision for very long
  digit runs. `Ordinals.Lower` folds ASCII letters only.
- `Carousel.Rotation` takes an integer `rotate`. Non-numeric JSON values are not modelled.
- The unused `index` parameter of `createTimelineItem` is not modelled.

=== FILE: carousel.dfy ===
/**
 * The per-event image carousel: the markup `createCarousel` emits, and the state machine
 * `initializeCarousel` wires onto it.
 *
 * The DOM part of a mounted carousel is abstracted to its active flags and its button flag. Each
 * call of `initializeCarousel` registers one handler set (prev, next, and one per indicator)
 * closing over its own `currentIndex`; the model keeps those indices, in registration order.
 */
module Carousel {
  import opened Options

  datatype ImageTag = ImageTag(src: string, altNumber: nat, active: bool, rotation: Option<int>)

  datatype IndicatorTag = IndicatorTag(index: nat, active: bool)

  datatype Markup = Markup(eventId: string, images: seq<ImageTag>, hasButtons: bool, indicators: seq<IndicatorTag>)

  /** The rotation transform applied to every image: `rotate * 90` degrees when that is positive,
      none otherwise (so a zero or negative multiplier rotates nothing). */
  function Rotation(rotate: int): (r: Option<int>)
    ensures r.Some? <==> rotate > 0
    ensures r.Some? ==> r.value == rotate * 90 && r.value % 90 == 0
  {
    var degrees := rotate * 90;
    if degrees > 0 then Some(degrees) else None
  }

  /** `createCarousel`: nothing for an empty image list; otherwise one image per input image in
      order, only the first active, and navigation (buttons and one indicator per image, only the
      first active) only when there is more than one image. */
  function CreateCarousel(images: seq<string>, eventId: string, rotate: int): (r: Option<Markup>)
    ensures r.None? <==> |images| == 0
    ensures r.Some? ==> r.value.eventId == eventId && |r.value.images| == |images|
    ensures r.Some? ==> forall i :: 0 <= i < |images| ==>
              && r.value.images[i].src == images[i]
              && r.value.images[i].altNumber == i + 1
              && (r.value.images[i].active <==> i == 0)
              && r.value.images[i].rotation == Rotation(rotate)
    ensures r.Some? ==> (r.value.hasButtons <==> |images| > 1)
    ensures r.Some? ==> |r.value.indicators| == if |images| > 1 then |images| else 0
    ensures r.Some? ==> forall i :: 0 <= i < |r.value.indicators| ==>
              r.value.indicators[i].index == i && (r.value.indicators[i].active <==> i == 0)
  {
    if |images| == 0 then None
    else
      var rotation := Rotation(rotate);
      var tags := seq(|images|, i requires 0 <= i < |images| => ImageTag(images[i], i + 1, i == 0, rotation));
      var indicators := if |images| > 1 then seq(|images|, (i: nat) => IndicatorTag(i, i == 0)) else [];
      Some(Markup(eventId, tags, |images| > 1, indicators))
  }

  // ---------------------------------------------------------------------------------------------
  // The mounted carousel and its handlers.

  /** Active flags of the images and indicators, whether the prev/next buttons exist, and the
      `currentIndex` of every registered handler set, oldest first. */
  datatype Dom = Dom(imageActive: seq<bool>, indicatorActive: seq<bool>, hasButtons: bool, handlers: seq<nat>)

  /** The user's interactions with a carousel. */
  datatype Control = Prev | Next | Select(index: nat)

  /** The carousel as it is in the document right after the markup is inserted. */
  function Mount(m: Markup): Dom
  {
    Dom(seq(|m.images|, i requires 0 <= i < |m.images| => m.images[i].active),
        seq(|m.indicators|, i requires 0 <= i < |m.indicators| => m.indicators[i].active),
        m.hasButtons,
        [])
  }

  /** A mounted carousel: at least one image, an indicator per image or none at all, and every
      handler's index naming an image. */
  ghost predicate Wf(d: Dom) {
    && |d.imageActive| >= 1
    && (|d.indicatorActive| == 0 || |d.indicatorActive| == |d.imageActive|)
    && forall h :: 0 <= h < |d.handlers| ==> d.handlers[h] < |d.imageActive|
  }

  /** Exactly image `v` is active, and exactly indicator `v` when there are indicators. */
  ghost predicate Shows(d: Dom, v: nat) {
    && v < |d.imageActive|
    && (forall k :: 0 <= k < |d.imageActive| ==> (d.imageActive[k] <==> k == v))
    && (forall k :: 0 <= k < |d.indicatorActive| ==> (d.indicatorActive[k] <==> k == v))
  }

  /** At most one image is shown at a time. */
  lemma ShowsUnique(d: Dom, a: nat, b: nat)
    requires Shows(d, a) && Shows(d, b)
    ensures a == b
  {
    assert d.imageActive[a];
  }

  /** The control is present in the document, so it can be clicked. */
  predicate Present(d: Dom, c: Control) {
    match c
    case Prev => d.hasButtons
    case Next => d.hasButtons
    case Select(i) => i < |d.indicatorActive|
  }

  /** Freshly inserted markup is a well-formed carousel showing image 0 with no handlers yet,
      which is the state `initializeCarousel` assumes when it starts its index at 0. */
  lemma MountShowsFirst(images: seq<string>, eventId: string, rotate: int)
    requires |images| > 0
    ensures var d := Mount(CreateCarousel(images, eventId, rotate).value);
            Wf(d) && Shows(d, 0) && d.handlers == [] && (d.hasButtons <==> |d.imageActive| > 1)
  {
  }

  /** The index a handler moves to: `next` and `prev` wrap around modulo the image count, an
      indicator selects its own index. Both operands of `%` are non-negative here, so the
      truncating remainder of `script.js` and Dafny's Euclidean one agree. */
  function Step(c: Control, current: nat, n: nat): (r: nat)
    requires current < n
    requires c.Select? ==> c.index < n
    ensures r < n
    ensures c.Next? ==> r == if current == n - 1 then 0 else current + 1
    ensures c.Prev? ==> r == if current == 0 then n - 1 else current - 1
    ensures c.Select? ==> r == c.index
  {
    match c
    case Prev => ModBelowTwice(current - 1 + n, n); (current - 1 + n) % n
    case Next => ModBelowTwice(current + 1, n); (current + 1) % n
    case Select(i) => i
  }

  /** The remainder of a value below twice the divisor subtracts the divisor at most once. */
  lemma ModBelowTwice(x: int, n: int)
    requires 0 <= x < 2 * n
    ensures x % n == if x < n then x else x - n
  {
    if x < n {
      assert x == 0 * n + x;
    } else {
      assert x == 1 * n + (x - n);
    }
  }

  /** `showImage`: deactivate every image and indicator, then activate the ones at `index`
      (the indicator only when it exists). */
  function ShowImage(d: Dom, index: nat): (r: Dom)
    requires index < |d.imageActive|
    ensures Shows(r, index)
    ensures |r.imageActive| == |d.imageActive| && |r.indicatorActive| == |d.indicatorActive|
    ensures r.hasButtons == d.hasButtons && r.handlers == d.handlers
  {
    d.(imageActive := seq(|d.imageActive|, k => k == index),
       indicatorActive := seq(|d.indicatorActive|, k => k == index))
  }

  /** `initializeCarousel`: with at most one image nothing is registered; otherwise one more
      handler set starts at index 0. The active flags are left as they are. */
  function Initialize(d: Dom): (r: Dom)
    ensures |d.imageActive| <= 1 ==> r == d
    ensures |d.imageActive| > 1 ==> r == d.(handlers := d.handlers + [0])
    ensures Wf(d) ==> Wf(r)
    ensures forall v :: Shows(d, v) ==> Shows(r, v)
  {
    if |d.imageActive| <= 1 then d else d.(handlers := d.handlers + [0])
  }

  /** The handler sets from position `k` on react to one click, in registration order: each
      moves its own index and shows the image at it. */
  function Fire(d: Dom, c: Control, k: nat): (r: Dom)
    requires Wf(d) && Present(d, c) && k <= |d.handlers|
    ensures Wf(r) && Present(r, c)
    ensures |r.imageActive| == |d.imageActive| && |r.indicatorActive| == |d.indicatorActive|
    ensures r.hasButtons == d.hasButtons && |r.handlers| == |d.handlers|
    ensures forall h :: 0 <= h < k ==> r.handlers[h] == d.handlers[h]
    ensures forall h :: k <= h < |d.handlers| ==> r.handlers[h] == Step(c, d.handlers[h], |d.imageActive|)
    ensures k == |d.handlers| ==> r == d
    ensures k < |d.handlers| ==> Shows(r, r.handlers[|r.handlers| - 1])
    decreases |d.handlers| - k
  {
    if k == |d.handlers| then d
    else
      var index := Step(c, d.handlers[k], |d.imageActive|);
      Fire(ShowImage(d, index).(handlers := d.handlers[k := index]), c, k + 1)
  }

  /** A click on a present control. Every registered handler set reacts: each advances its own
      index from where it last was, and the image shown at the end is the one the most recently
      registered set chose. Without handlers the click changes nothing. */
  function Click(d: Dom, c: Control): (r: Dom)
    requires Wf(d) && Present(d, c)
    ensures Wf(r) && Present(r, c)
    ensures |r.imageActive| == |d.imageActive| && |r.handlers| == |d.handlers|
    ensures |r.indicatorActive| == |d.indicatorActive| && r.hasButtons == d.hasButtons
    ensures forall h :: 0 <= h < |d.handlers| ==> r.handlers[h] == Step(c, d.handlers[h], |d.imageActive|)
    ensures |d.handlers| == 0 ==> r == d
    ensures |d.handlers| > 0 ==> Shows(r, r.handlers[|r.handlers| - 1])
  {
    Fire(d, c, 0)
  }

  /** A sequence of clicks on present controls, in order. Once a handler set is registered, every
      click leaves exactly one image shown: the one the newest handler set points at. */
  function Navigate(d: Dom, cs: seq<Control>): (r: Dom)
    requires Wf(d) && forall i :: 0 <= i < |cs| ==> Present(d, cs[i])
    ensures Wf(r) && |r.imageActive| == |d.imageActive| && |r.handlers| == |d.handlers|
    ensures |r.indicatorActive| == |d.indicatorActive| && r.hasButtons == d.hasButtons
    ensures |d.handlers| == 0 || |cs| == 0 ==> r == d
    ensures |d.handlers| > 0 && |cs| > 0 ==> Shows(r, r.handlers[|r.handlers| - 1])
    decreases |cs|
  {
    if |cs| == 0 then d
    else
      var d1 := Click(d, cs[0]);
      PresentKept(d, d1);
      Navigate(d1, cs[1..])
  }

  /** Which controls are present depends only on the buttons and the indicator count. */
  lemma PresentKept(d: Dom, d1: Dom)
    requires d1.hasButtons == d.hasButtons && |d1.indicatorActive| == |d.indicatorActive|
    ensures forall c :: Present(d, c) ==> Present(d1, c)
  {
  }

  /** `k` clicks on `next`. */
  function NextClicks(k: nat): (cs: seq<Control>)
    ensures |cs| == k && forall i :: 0 <= i < k ==> cs[i] == Next
  {
    seq(k, i => Next)
  }

  /** After `k` clicks on `next`, every handler set has taken `k` steps from where it was. */
  lemma {:induction false} NavigateNext(d: Dom, k: nat)
    requires Wf(d) && d.hasButtons
    ensures var r := Navigate(d, NextClicks(k));
            forall h :: 0 <= h < |d.handlers| ==> r.handlers[h] == NextTimes(d.handlers[h], k, |d.imageActive|)
    decreases k
  {
    if k > 0 {
      var n := |d.imageActive|;
      var cs := NextClicks(k);
      var d1 := Click(d, Next);
      NavigateFirst(d, cs);
      assert cs[1..] == NextClicks(k - 1);
      NavigateNext(d1, k - 1);
      StepThenNext(d.handlers, d1.handlers, Navigate(d1, NextClicks(k - 1)).handlers, k, n);
    }
  }

  /** A click sequence is its first click followed by the rest. */
  lemma NavigateFirst(d: Dom, cs: seq<Control>)
    requires Wf(d) && |cs| > 0 && forall i :: 0 <= i < |cs| ==> Present(d, cs[i])
    ensures var d1 := Click(d, cs[0]);
            (forall i :: 0 <= i < |cs[1..]| ==> Present(d1, cs[1..][i])) &&
            Navigate(d, cs) == Navigate(d1, cs[1..])
  {
    PresentKept(d, Click(d, cs[0]));
  }

  lemma StepThenNext(hs: seq<nat>, ms: seq<nat>, rs: seq<nat>, k: nat, n: nat)
    requires k > 0 && |ms| == |hs| && |rs| == |hs|
    requires forall h :: 0 <= h < |hs| ==> hs[h] < n && ms[h] == Step(Next, hs[h], n)
    requires forall h :: 0 <= h < |hs| ==> ms[h] < n && rs[h] == NextTimes(ms[h], k - 1, n)
    ensures forall h :: 0 <= h < |hs| ==> rs[h] == NextTimes(hs[h], k, n)
  {
    forall h | 0 <= h < |hs|
      ensures rs[h] == NextTimes(hs[h], k, n)
    {
      NextTimesAdd(hs[h], 1, k - 1, n);
    }
  }

  /** As many clicks on `next` as there are images bring every handler set back to where it
      was, and the carousel shows again the image the newest handler set started from. */
  lemma NextRoundTrip(d: Dom)
    requires Wf(d) && d.hasButtons && |d.handlers| > 0
    ensures var r := Navigate(d, NextClicks(|d.imageActive|));
            r.handlers == d.handlers && Shows(r, d.handlers[|d.handlers| - 1])
  {
    var n := |d.imageActive|;
    var cs := NextClicks(n);
    var r := Navigate(d, cs);
    NavigateNext(d, n);
    CycleAll(d.handlers, r.handlers, n);
    assert |cs| > 0;
    assert Shows(r, r.handlers[|r.handlers| - 1]);
  }

  lemma CycleAll(hs: seq<nat>, rs: seq<nat>, n: nat)
    requires |rs| == |hs|
    requires forall h :: 0 <= h < |hs| ==> hs[h] < n && rs[h] == NextTimes(hs[h], n, n)
    ensures rs == hs
  {
    forall h | 0 <= h < |hs|
      ensures rs[h] == hs[h]
    {
      NextCycle(hs[h], n);
    }
  }

  // ---------------------------------------------------------------------------------------------
  // Properties of the index arithmetic.

  lemma PrevUndoesNext(current: nat, n: nat)
    requires current < n
    ensures Step(Prev, Step(Next, current, n), n) == current
    ensures Step(Next, Step(Prev, current, n), n) == current
  {
  }

  /** `k` consecutive `next` clicks seen by one handler set. */
  function NextTimes(current: nat, k: nat, n: nat): (r: nat)
    requires current < n
    ensures r < n
  {
    if k == 0 then current else Step(Next, NextTimes(current, k - 1, n), n)
  }

  /** Below the wrap-around, `k` clicks on `next` simply add `k`. */
  lemma {:induction false} NextTimesBelow(current: nat, k: nat, n: nat)
    requires current + k < n
    ensures NextTimes(current, k, n) == current + k
  {
    if k > 0 {
      NextTimesBelow(current, k - 1, n);
    }
  }

  /** Clicks on `next` compose: `a + b` clicks are `a` clicks followed by `b` clicks. */
  lemma {:induction false} NextTimesAdd(current: nat, a: nat, b: nat, n: nat)
    requires current < n
    ensures NextTimes(current, a + b, n) == NextTimes(NextTimes(current, a, n), b, n)
  {
    if b > 0 {
      NextTimesAdd(current, a, b - 1, n);
    }
  }

  /** `n` clicks on `next` bring a handler back to where it started. */
  lemma NextCycle(current: nat, n: nat)
    requires current < n
    ensures NextTimes(current, n, n) == current
  {
    var toLast := n - 1 - current;
    NextTimesBelow(current, toLast, n);
    assert NextTimes(current, toLast + 1, n) == 0;
    NextTimesBelow(0, current, n);
    NextTimesAdd(current, toLast + 1, current, n);
  }
}

=== FILE: events.dfy ===
/** The timeline's input records, as loaded from `events.json`. */
module Events {

  /** The `type` tag. The page knows `date` and `period`; any other string is carried as `Unknown`. */
  datatype Kind = Date | Period | Unknown(tag: string)

  /**
   * One timeline entry. Optional fields are given their defaults: a missing `images` list is empty,
   * a missing `rotate` is 0, and a date carries whatever `endDate` the document gave it (unused).
   */
  datatype Event = Event(
    id: string,
    kind: Kind,
    startDate: string,
    endDate: string,
    title: string,
    description: string,
    images: seq<string>,
    rotate: int)

  predicate IsDate(e: Event) { e.kind.Date? }

  predicate IsPeriod(e: Event) { e.kind.Period? }

  /** The text shown in an item's date line: the start label, or "start - end" for a period. */
  function DateText(e: Event): (r: string)
    ensures IsPeriod(e) ==> |r| == |e.startDate| + 3 + |e.endDate|
    ensures IsPeriod(e) ==> r[..|e.startDate|] == e.startDate && r[|r| - |e.endDate|..] == e.endDate
    ensures IsPeriod(e) ==> r[|e.startDate|..|e.startDate| + 3] == " - "
    ensures !IsPeriod(e) ==> r == e.startDate
  {
    if IsPeriod(e) then e.startDate + " - " + e.endDate else e.startDate
  }
}

=== FILE: items.dfy ===
/**
 * `createTimelineItem`: the expanded/collapsed state of an item's details and the click handler
 * that toggles it, together with the item's carousel.
 */
module Items {
  import opened Options
  import opened Events
  import opened Carousel

  /** Where a click on an item's content lands: on a carousel control, or anywhere else. */
  datatype Origin = Elsewhere | OnControl(control: Control)

  /** An item: its event, whether its details are expanded, whether it has the toggle handler,
      and its carousel when it has images. */
  datatype Item = Item(event: Event, expanded: bool, toggles: bool, carousel: Option<Dom>)

  /** The carousel, when present, is well formed and has one image per image of the event. */
  ghost predicate ItemWf(it: Item) {
    it.carousel.Some? ==> Wf(it.carousel.value) && |it.carousel.value.imageActive| == |it.event.images|
  }

  /**
   * A new item. A period's details start expanded and it has no toggle; its carousel is
   * initialised once (`createTimelineItem` defers this call to the next tick). A date's details start
   * collapsed and a click toggles them. An item of any other type has neither.
   */
  function CreateItem(e: Event): (it: Item)
    ensures ItemWf(it) && it.event == e
    ensures it.expanded <==> IsPeriod(e)
    ensures it.toggles <==> IsDate(e)
    ensures it.carousel.Some? <==> |e.images| > 0
    ensures it.carousel.Some? ==> Shows(it.carousel.value, 0)
    ensures it.carousel.Some? ==>
              it.carousel.value.handlers == if IsPeriod(e) && |e.images| > 1 then [0] else []
  {
    match CreateCarousel(e.images, e.id, e.rotate)
    case None => Item(e, IsPeriod(e), IsDate(e), None)
    case Some(m) =>
      MountShowsFirst(e.images, e.id, e.rotate);
      var d := Mount(m);
      Item(e, IsPeriod(e), IsDate(e), Some(if IsPeriod(e) then Initialize(d) else d))
  }

  /** A click on a carousel control that exists: the carousel's handlers react, if any. */
  function ClickControl(it: Item, c: Control): (r: Item)
    requires ItemWf(it)
    ensures ItemWf(r) && r.expanded == it.expanded && r.toggles == it.toggles && r.event == it.event
    ensures r.carousel.Some? == it.carousel.Some?
  {
    match it.carousel
    case Some(d) => if Present(d, c) then it.(carousel := Some(Click(d, c))) else it
    case None => it
  }

  /**
   * A click on an item's content, as `createTimelineItem` handles it. A click whose origin is a carousel
   * control never toggles; any other click on a date flips its details, and every flip to
   * expanded calls `initializeCarousel` again when the date has images.
   */
  function ClickItem(it: Item, o: Origin): (r: Item)
    requires ItemWf(it)
    ensures ItemWf(r) && r.event == it.event && r.toggles == it.toggles
    ensures r.carousel.Some? == it.carousel.Some?
    ensures o.OnControl? ==> r.expanded == it.expanded
    ensures o.Elsewhere? ==> (r.expanded <==> (if it.toggles then !it.expanded else it.expanded))
    ensures o.Elsewhere? && it.carousel.Some? ==>
              r.carousel.Some? &&
              |r.carousel.value.handlers| ==
                |it.carousel.value.handlers|
                + (if it.toggles && !it.expanded && |it.carousel.value.imageActive| > 1 then 1 else 0)
    ensures o.Elsewhere? && it.carousel.Some? ==>
              && r.carousel.value.imageActive == it.carousel.value.imageActive
              && r.carousel.value.indicatorActive == it.carousel.value.indicatorActive
              && r.carousel.value.handlers == it.carousel.value.handlers
                   + (if it.toggles && !it.expanded && |it.carousel.value.imageActive| > 1 then [0] else [])
  {
    match o
    case OnControl(c) => ClickControl(it, c)
    case Elsewhere =>
      if !it.toggles then it
      else
        var expanded := !it.expanded;
        if expanded && |it.event.images| > 0 && it.carousel.Some? then
          it.(expanded := true, carousel := Some(Initialize(it.carousel.value)))
        else
          it.(expanded := expanded)
  }

  /** A sequence of clicks, in order. */
  function Clicks(it: Item, os: seq<Origin>): (r: Item)
    requires ItemWf(it)
    ensures ItemWf(r) && r.event == it.event && r.toggles == it.toggles
    ensures r.carousel.Some? == it.carousel.Some?
    decreases |os|
  {
    if |os| == 0 then it else Clicks(ClickItem(it, os[0]), os[1..])
  }

  /** `k` clicks on a date's content away from the carousel. */
  function Toggles(k: nat): (os: seq<Origin>)
    ensures |os| == k && forall i :: 0 <= i < k ==> os[i] == Elsewhere
  {
    seq(k, i => Elsewhere)
  }

  /** Every expansion of a date with several images registers one more handler set: after `k`
      plain clicks a fresh date is expanded iff `k` is odd and holds `(k + 1) / 2` handler sets. */
  lemma {:induction false} ExpansionsAccumulateHandlers(e: Event, k: nat)
    requires IsDate(e) && |e.images| > 1
    ensures var r := Clicks(CreateItem(e), Toggles(k));
            && (r.expanded <==> k % 2 == 1)
            && r.carousel.Some?
            && |r.carousel.value.handlers| == (k + 1) / 2
  {
    if k > 0 {
      ExpansionsAccumulateHandlers(e, k - 1);
      ClicksSnoc(CreateItem(e), Toggles(k - 1), Elsewhere);
      assert Toggles(k) == Toggles(k - 1) + [Elsewhere];
      if k % 2 == 1 {
        assert (k - 1 + 1) / 2 + 1 == (k + 1) / 2;
      } else {
        assert (k - 1 + 1) / 2 == (k + 1) / 2;
      }
    }
  }

  lemma {:induction false} ClicksSnoc(it: Item, os: seq<Origin>, o: Origin)
    requires ItemWf(it)
    ensures ItemWf(Clicks(it, os))
    ensures Clicks(it, os + [o]) == ClickItem(Clicks(it, os), o)
    decreases |os|
  {
    if |os| > 0 {
      assert (os + [o])[1..] == os[1..] + [o];
      ClicksSnoc(ClickItem(it, os[0]), os[1..], o);
    }
  }

  // ---------------------------------------------------------------------------------------------
  // Re-initialisation on every expansion.

  /** A date with three images, used to exhibit the effect of repeated initialisation. */
  function ThreeImageDate(): Event
  {
    Event("1", Date, "January 4th", "", "Trip", "Photos", ["a.jpg", "b.jpg", "c.jpg"], 0)
  }

  /**
   * As written: expand, click `next` (image 1 shows), collapse, expand again, click `next`. The
   * second expansion registers a second handler set at index 0 while image 1 is still shown; on
   * the next click the old set moves to 2 and then the new set moves to 1, so image 1 stays.
   */
  lemma ReexpandedNextIsStuck()
    ensures var it0 := CreateItem(ThreeImageDate());
            var it2 := ClickItem(ClickItem(it0, Elsewhere), OnControl(Next));
            var it4 := ClickItem(ClickItem(it2, Elsewhere), Elsewhere);
            var it5 := ClickItem(it4, OnControl(Next));
            && Shows(it2.carousel.value, 1)
            && it4.expanded && Shows(it4.carousel.value, 1) && it4.carousel.value.handlers == [1, 0]
            && Shows(it5.carousel.value, 1) && it5.carousel.value.handlers == [2, 1]
  {
    var it0 := CreateItem(ThreeImageDate());
    var it1 := ClickItem(it0, Elsewhere);
    assert it1.carousel.value.handlers == [0];
    var it2 := ClickItem(it1, OnControl(Next));
    assert it2.carousel.value.handlers == [1];
    var it3 := ClickItem(it2, Elsewhere);
    var it4 := ClickItem(it3, Elsewhere);
    assert it4.carousel.value.handlers == [1, 0];
    var it5 := ClickItem(it4, OnControl(Next));
    assert it5.carousel.value.handlers == [2, 1];
  }

  /** At most one handler set, agreeing with the image that is shown, and present whenever an
      expanded date has images to navigate. */
  ghost predicate Synced(it: Item) {
    it.carousel.Some? ==>
      var d := it.carousel.value;
      && ((d.handlers == [] && Shows(d, 0)) || (|d.handlers| == 1 && Shows(d, d.handlers[0])))
      && (it.toggles && it.expanded && |it.event.images| > 1 ==> |d.handlers| == 1)
  }

  /** The content click with initialisation done once per mounted carousel: an expansion
      registers handlers only when none are registered yet. */
  function ClickItemOnce(it: Item, o: Origin): (r: Item)
    requires ItemWf(it) && Synced(it)
    ensures ItemWf(r) && Synced(r) && r.event == it.event && r.toggles == it.toggles
    ensures r.carousel.Some? == it.carousel.Some?
    ensures o.OnControl? ==> r.expanded == it.expanded
    ensures o.Elsewhere? ==> (r.expanded <==> (if it.toggles then !it.expanded else it.expanded))
  {
    match o
    case OnControl(c) => ClickControl(it, c)
    case Elsewhere =>
      if !it.toggles then it
      else
        var expanded := !it.expanded;
        if expanded && |it.event.images| > 0 && it.carousel.Some? && it.carousel.value.handlers == [] then
          it.(expanded := true, carousel := Some(Initialize(it.carousel.value)))
        else
          it.(expanded := expanded)
  }

  /** On an expanded date with several images, `next` always moves the shown image one step
      forward and `prev` one step back. */
  lemma OnceNavigationMoves(it: Item, v: nat)
    requires ItemWf(it) && Synced(it)
    requires it.toggles && it.expanded && |it.event.images| > 1
    requires it.carousel.Some? && Shows(it.carousel.value, v) && it.carousel.value.hasButtons
    ensures Shows(ClickItemOnce(it, OnControl(Next)).carousel.value, Step(Next, v, |it.event.images|))
    ensures Shows(ClickItemOnce(it, OnControl(Prev)).carousel.value, Step(Prev, v, |it.event.images|))
  {
    var d := it.carousel.value;
    ShowsUnique(d, v, d.handlers[0]);
  }

  /** Any sequence of clicks, handled with initialisation done once. */
  function ClicksOnce(it: Item, os: seq<Origin>): (r: Item)
    requires ItemWf(it) && Synced(it)
    ensures ItemWf(r) && Synced(r) && r.event == it.event && r.toggles == it.toggles
    ensures r.carousel.Some? ==> |r.carousel.value.handlers| <= 1
    decreases |os|
  {
    if |os| == 0 then it else ClicksOnce(ClickItemOnce(it, os[0]), os[1..])
  }

  /** A fresh item satisfies the invariant the corrected handler keeps. */
  lemma CreatedItemIsSynced(e: Event)
    ensures Synced(CreateItem(e))
  {
  }

  /** The same five clicks as in `ReexpandedNextIsStuck`, with initialisation done once: the
      second `next` shows image 2. */
  lemma OnceReexpandedNextMoves()
    ensures var it0 := CreateItem(ThreeImageDate());
            var it2 := ClickItemOnce(ClickItemOnce(it0, Elsewhere), OnControl(Next));
            var it4 := ClickItemOnce(ClickItemOnce(it2, Elsewhere), Elsewhere);
            var it5 := ClickItemOnce(it4, OnControl(Next));
            && it4.expanded && Shows(it4.carousel.value, 1) && it4.carousel.value.handlers == [1]
            && Shows(it5.carousel.value, 2)
  {
    var it0 := CreateItem(ThreeImageDate());
    var it1 := ClickItemOnce(it0, Elsewhere);
    assert it1.carousel.value.handlers == [0];
    var it2 := ClickItemOnce(it1, OnControl(Next));
    assert it2.carousel.value.handlers == [1];
    var it3 := ClickItemOnce(it2, Elsewhere);
    var it4 := ClickItemOnce(it3, Elsewhere);
    assert it4.carousel.value.handlers == [1];
    var it5 := ClickItemOnce(it4, OnControl(Next));
    assert it5.carousel.value.handlers == [2];
  }
}

=== FILE: layout.dfy ===
/**
 * `renderTimeline`: which items are appended to the timeline, in which order, and on which grid rows.
 * The DOM is abstracted to the emitted sequence of (event, placement) pairs.
 */
module Layout {
  import opened Seqs
  import opened Events
  import opened Membership

  /** The grid position an item receives: a single row for a date, a start row and a span for a
      period, or no explicit row at all (the fallback when there is no period). A date's `Row` is
      set on both its content and its marker; a period's `Span` is set on its content only, and
      its marker keeps the default grid row. */
  datatype Placement = Row(row: int) | Span(start: int, span: int) | Auto

  datatype Rendered = Rendered(event: Event, placement: Placement)

  /** The items of one group together with the value of `currentRow` after them. */
  datatype Placed = Placed(items: seq<Rendered>, next: int)

  /** What the timeline container ends up showing. */
  datatype View = ErrorState | EmptyState | Timeline(items: seq<Rendered>)

  /** The outcome of fetching and parsing `events.json`; the I/O itself is not modelled. */
  datatype Load = Loaded(events: seq<Event>) | LoadFailed

  function Periods(es: seq<Event>): seq<Event> { Filter(es, IsPeriod) }

  function Dates(es: seq<Event>): seq<Event> { Filter(es, IsDate) }

  function DatesIn(dates: seq<Event>, p: Event): seq<Event> { Filter(dates, d => InPeriod(d, p)) }

  function DatesBefore(dates: seq<Event>, p: Event): seq<Event> { Filter(dates, d => BeforePeriod(d, p)) }

  function DatesAfter(dates: seq<Event>, p: Event): seq<Event> { Filter(dates, d => AfterPeriod(d, p)) }

  function EventsOf(items: seq<Rendered>): (r: seq<Event>)
    ensures |r| == |items|
    ensures forall i :: 0 <= i < |items| ==> r[i] == items[i].event
  {
    seq(|items|, i requires 0 <= i < |items| => items[i].event)
  }

  function Max(a: int, b: int): int { if a < b then b else a }

  /**
   * One group of dates placed from `currentRow = row`: each date takes the current row, and a
   * spacer row separates it from the next date of the group; no spacer follows the last one.
   */
  function PlaceGroup(ds: seq<Event>, row: int): (r: Placed)
    ensures |r.items| == |ds|
    ensures forall i :: 0 <= i < |ds| ==> r.items[i] == Rendered(ds[i], Row(row + 2 * i))
    ensures r.next == if |ds| == 0 then row else row + 2 * |ds| - 1
    decreases |ds|
  {
    if |ds| == 0 then Placed([], row)
    else
      var step := if |ds| > 1 then 2 else 1;
      var rest := PlaceGroup(ds[1..], row + step);
      Placed([Rendered(ds[0], Row(row))] + rest.items, rest.next)
  }

  /** One period: its span starting at `currentRow`, then its dates, then one row of gap. */
  function PlacePeriod(p: Event, dates: seq<Event>, row: int): Placed
  {
    PeriodWith(p, DatesIn(dates, p), row)
  }

  /** A period item followed by the group of dates found inside it. */
  function PeriodWith(p: Event, inside: seq<Event>, row: int): Placed
  {
    var group := PlaceGroup(inside, row);
    Placed([Rendered(p, Span(row, Max(2 * |inside| - 1, 1)))] + group.items, group.next + 1)
  }

  /** The `periods.forEach` loop, without the dates placed before the first period. */
  function PlacePeriods(ps: seq<Event>, dates: seq<Event>, row: int): Placed
    decreases |ps|
  {
    if |ps| == 0 then Placed([], row)
    else
      var first := PlacePeriod(ps[0], dates, row);
      var rest := PlacePeriods(ps[1..], dates, first.next);
      Placed(first.items + rest.items, rest.next)
  }

  /** The emitted items of a non-empty timeline. */
  function Emitted(es: seq<Event>): seq<Rendered>
  {
    Place(es).items
  }

  /** The items together with the final value of `currentRow` (1 when there is no period). */
  function Place(es: seq<Event>): Placed
  {
    var ps := Periods(es);
    if |ps| == 0 then
      Placed(seq(|es|, i requires 0 <= i < |es| => Rendered(es[i], Auto)), 1)
    else
      var dates := Dates(es);
      var pre := PlaceGroup(DatesBefore(dates, ps[0]), 1);
      var mid := PlacePeriods(ps, dates, pre.next);
      var post := PlaceGroup(DatesAfter(dates, ps[|ps| - 1]), mid.next);
      Placed(pre.items + mid.items + post.items, post.next)
  }

  /** `renderTimeline` on the loaded list: a placeholder for an empty list, items otherwise. */
  function Render(es: seq<Event>): (v: View)
    ensures v != ErrorState
    ensures v == EmptyState <==> |es| == 0
    ensures v.Timeline? ==> EventsOf(v.items) == EmissionOrder(es)
  {
    LayoutEmissionOrder(es);
    if |es| == 0 then EmptyState else Timeline(Emitted(es))
  }

  /** `loadEventsFromJSON` followed by rendering: a failed load shows only the error placeholder. */
  function RenderLoad(load: Load): (v: View)
    ensures v == ErrorState <==> load.LoadFailed?
    ensures v == EmptyState <==> load == Loaded([])
  {
    match load
    case LoadFailed => ErrorState
    case Loaded(es) => Render(es)
  }

  // ---------------------------------------------------------------------------------------------
  // Reference definition of the emission order, stated on events alone (no rows).

  /** For each period in order: the period, then the dates it contains, in input order. */
  function Groups(ps: seq<Event>, dates: seq<Event>): seq<Event>
    decreases |ps|
  {
    if |ps| == 0 then [] else [ps[0]] + DatesIn(dates, ps[0]) + Groups(ps[1..], dates)
  }

  /** Without periods, the input itself; otherwise the dates before the first period, the period
      groups, and the dates after the last period. */
  function EmissionOrder(es: seq<Event>): seq<Event>
  {
    var ps := Periods(es);
    if |ps| == 0 then es
    else
      var dates := Dates(es);
      DatesBefore(dates, ps[0]) + Groups(ps, dates) + DatesAfter(dates, ps[|ps| - 1])
  }

  lemma EventsOfConcat(a: seq<Rendered>, b: seq<Rendered>)
    ensures EventsOf(a + b) == EventsOf(a) + EventsOf(b)
  {
  }

  lemma GroupOrder(ds: seq<Event>, row: int)
    ensures EventsOf(PlaceGroup(ds, row).items) == ds
  {
  }

  lemma PeriodOrder(p: Event, inside: seq<Event>, row: int)
    ensures EventsOf(PeriodWith(p, inside, row).items) == [p] + inside
  {
    var group := PlaceGroup(inside, row);
    GroupOrder(inside, row);
    EventsOfConcat([Rendered(p, Span(row, Max(2 * |inside| - 1, 1)))], group.items);
  }

  lemma {:induction false} PlacePeriodsOrder(ps: seq<Event>, dates: seq<Event>, row: int)
    ensures EventsOf(PlacePeriods(ps, dates, row).items) == Groups(ps, dates)
    decreases |ps|
  {
    if |ps| > 0 {
      var first := PlacePeriod(ps[0], dates, row);
      var rest := PlacePeriods(ps[1..], dates, first.next);
      PeriodOrder(ps[0], DatesIn(dates, ps[0]), row);
      PlacePeriodsOrder(ps[1..], dates, first.next);
      EventsOfConcat(first.items, rest.items);
    }
  }

  /** The items come out in the reference emission order. */
  lemma LayoutEmissionOrder(es: seq<Event>)
    ensures EventsOf(Emitted(es)) == EmissionOrder(es)
  {
    var ps := Periods(es);
    if |ps| > 0 {
      var dates := Dates(es);
      var pre := PlaceGroup(DatesBefore(dates, ps[0]), 1);
      var mid := PlacePeriods(ps, dates, pre.next);
      var post := PlaceGroup(DatesAfter(dates, ps[|ps| - 1]), mid.next);
      PlacePeriodsOrder(ps, dates, pre.next);
      GroupOrder(DatesBefore(dates, ps[0]), 1);
      GroupOrder(DatesAfter(dates, ps[|ps| - 1]), mid.next);
      EventsOfConcat(pre.items, mid.items);
      EventsOfConcat(pre.items + mid.items, post.items);
    }
  }

  // ---------------------------------------------------------------------------------------------
  // Row bookkeeping.

  /** A period's item spans `max(2k - 1, 1)` rows from the current row, where k is the number of
      dates inside it; those dates follow it, the first on the span's first row and the last on its
      last row; afterwards `currentRow` is one past the group's end, whether or not k is 0. */
  lemma PeriodSpan(p: Event, dates: seq<Event>, row: int)
    ensures var inside := DatesIn(dates, p);
            var k := |inside|;
            var r := PlacePeriod(p, dates, row);
            && |r.items| == k + 1
            && r.items[0] == Rendered(p, Span(row, if k == 0 then 1 else 2 * k - 1))
            && (forall i :: 1 <= i <= k ==> r.items[i] == Rendered(inside[i - 1], Row(row + 2 * (i - 1))))
            && (k >= 1 ==> r.items[1].placement.row == r.items[0].placement.start)
            && (k >= 1 ==> r.items[k].placement.row == r.items[0].placement.start + r.items[0].placement.span - 1)
            && r.next == PlaceGroup(inside, row).next + 1
            && r.next == if k == 0 then row + 1 else row + 2 * k
  {
    PeriodWithSpan(p, DatesIn(dates, p), row);
  }

  lemma PeriodWithSpan(p: Event, inside: seq<Event>, row: int)
    ensures var k := |inside|;
            var r := PeriodWith(p, inside, row);
            && |r.items| == k + 1
            && r.items[0] == Rendered(p, Span(row, if k == 0 then 1 else 2 * k - 1))
            && (forall i :: 1 <= i <= k ==> r.items[i] == Rendered(inside[i - 1], Row(row + 2 * (i - 1))))
            && r.next == PlaceGroup(inside, row).next + 1
  {
    var group := PlaceGroup(inside, row);
    var r := PeriodWith(p, inside, row);
    forall i | 1 <= i <= |inside|
      ensures r.items[i] == Rendered(inside[i - 1], Row(row + 2 * (i - 1)))
    {
      assert r.items[i] == group.items[i - 1];
    }
  }

  /** Every placement of `items` starts at or after `lo`, and every row it occupies is below `hi`. */
  ghost predicate Within(items: seq<Rendered>, lo: int, hi: int) {
    forall i :: 0 <= i < |items| ==>
      match items[i].placement
      case Row(r) => lo <= r < hi
      case Span(s, n) => lo <= s && 1 <= n && s + n <= hi
      case Auto => false
  }

  /**
   * Two items in emission order do not collide. A date's row lies below every later row and
   * below the start of every later span. A span starts at or before every later date's row, and
   * it ends at or before the start of every later span. A later date whose row falls inside a
   * span belongs to that span's own group: only dates lie between the two, and it is among the
   * first `(n + 1) / 2` items after the span, which are the group of a span of `n` rows.
   */
  ghost predicate Apart(items: seq<Rendered>) {
    forall i, j :: 0 <= i < j < |items| ==> PairApart(items, i, j)
  }

  ghost predicate PairApart(items: seq<Rendered>, i: int, j: int)
    requires 0 <= i < j < |items|
  {
    match items[i].placement
    case Row(r) =>
      (match items[j].placement
       case Row(r') => r < r'
       case Span(s', _) => r < s'
       case Auto => true)
    case Span(s, n) =>
      (match items[j].placement
       case Row(r') =>
         s <= r' && (r' < s + n ==> j - i <= (n + 1) / 2 && forall k :: i < k <= j ==> items[k].placement.Row?)
       case Span(s', _) => s + n <= s'
       case Auto => true)
    case Auto => true
  }

  lemma WithinConcat(a: seq<Rendered>, b: seq<Rendered>, lo: int, mid: int, hi: int)
    requires Within(a, lo, mid) && Within(b, mid, hi) && lo <= mid <= hi
    requires Apart(a) && Apart(b)
    ensures Within(a + b, lo, hi) && Apart(a + b)
  {
    var c := a + b;
    forall i | 0 <= i < |c|
      ensures match c[i].placement
        case Row(r) => lo <= r < hi
        case Span(s, n) => lo <= s && 1 <= n && s + n <= hi
        case Auto => false
    {
      if i < |a| {
        assert c[i] == a[i];
      } else {
        assert c[i] == b[i - |a|];
      }
    }
    forall i, j | 0 <= i < j < |c|
      ensures PairApart(c, i, j)
    {
      if j < |a| {
        assert PairApart(a, i, j);
        assert c[i] == a[i] && c[j] == a[j];
        assert forall k :: i < k <= j ==> c[k] == a[k];
      } else if i >= |a| {
        assert PairApart(b, i - |a|, j - |a|);
        assert c[i] == b[i - |a|] && c[j] == b[j - |a|];
        assert forall k :: i < k <= j ==> c[k] == b[k - |a|];
      } else {
        assert c[i] == a[i] && c[j] == b[j - |a|];
      }
    }
  }

  lemma GroupRows(ds: seq<Event>, row: int)
    ensures var r := PlaceGroup(ds, row);
            row <= r.next && Within(r.items, row, r.next) && Apart(r.items)
  {
  }

  lemma PeriodRows(p: Event, inside: seq<Event>, row: int)
    ensures var r := PeriodWith(p, inside, row);
            row < r.next && Within(r.items, row, r.next) && Apart(r.items)
  {
    var group := PlaceGroup(inside, row);
    var r := PeriodWith(p, inside, row);
    PeriodWithSpan(p, inside, row);
    forall i, j | 0 <= i < j < |r.items|
      ensures PairApart(r.items, i, j)
    {
      if i == 0 {
        assert r.items[j] == group.items[j - 1];
        forall k | 0 < k <= j
          ensures r.items[k].placement.Row?
        {
          assert r.items[k] == group.items[k - 1];
        }
      } else {
        assert r.items[i] == group.items[i - 1] && r.items[j] == group.items[j - 1];
      }
    }
  }

  lemma {:induction false} PeriodsRows(ps: seq<Event>, dates: seq<Event>, row: int)
    ensures var r := PlacePeriods(ps, dates, row);
            row <= r.next && Within(r.items, row, r.next) && Apart(r.items)
    decreases |ps|
  {
    if |ps| > 0 {
      var first := PlacePeriod(ps[0], dates, row);
      var rest := PlacePeriods(ps[1..], dates, first.next);
      PeriodRows(ps[0], DatesIn(dates, ps[0]), row);
      PeriodsRows(ps[1..], dates, first.next);
      WithinConcat(first.items, rest.items, row, first.next, rest.next);
    }
  }

  /** Without a period in the input, every event, whatever its type, is emitted in input order
      and none gets an explicit row; with one, no item is left without a row. */
  lemma NoPeriodFallback(es: seq<Event>)
    ensures (forall i :: 0 <= i < |es| ==> !IsPeriod(es[i])) <==> |Periods(es)| == 0
    ensures |Periods(es)| == 0 ==>
              |Emitted(es)| == |es| && forall i :: 0 <= i < |es| ==> Emitted(es)[i] == Rendered(es[i], Auto)
    ensures |Periods(es)| > 0 ==> forall i :: 0 <= i < |Emitted(es)| ==> !Emitted(es)[i].placement.Auto?
  {
    FilterEmpty(es, IsPeriod);
    LayoutRows(es);
  }

  /** With a period present every item gets an explicit row at or after row 1, and everything it
      occupies lies below the final `currentRow`. No two items collide: dates' rows strictly
      increase, periods' spans are disjoint, and a date inside a span is one of that period's
      own dates. */
  lemma LayoutRows(es: seq<Event>)
    ensures |Periods(es)| > 0 ==> Within(Emitted(es), 1, Place(es).next)
    ensures Apart(Emitted(es))
  {
    var ps := Periods(es);
    if |ps| > 0 {
      var dates := Dates(es);
      var pre := PlaceGroup(DatesBefore(dates, ps[0]), 1);
      var mid := PlacePeriods(ps, dates, pre.next);
      var post := PlaceGroup(DatesAfter(dates, ps[|ps| - 1]), mid.next);
      GroupRows(DatesBefore(dates, ps[0]), 1);
      PeriodsRows(ps, dates, pre.next);
      GroupRows(DatesAfter(dates, ps[|ps| - 1]), mid.next);
      WithinConcat(pre.items, mid.items, 1, pre.next, mid.next);
      WithinConcat(pre.items + mid.items, post.items, 1, mid.next, post.next);
    }
  }

  // ---------------------------------------------------------------------------------------------
  // Where each stage starts: `currentRow` in closed form.

  /** How far `currentRow` advances over a group of `k` dates: two rows per date but the last. */
  function Used(k: nat): nat { if k == 0 then 0 else 2 * k - 1 }

  /** How far `currentRow` advances over a period with `k` dates inside: its group, or the one row
      of an empty period, plus the gap row. */
  function Gap(k: nat): nat { if k == 0 then 1 else 2 * k }

  /** The dates inside each period of `ps`, in the order of `ps`. */
  function Insides(ps: seq<Event>, dates: seq<Event>): seq<seq<Event>>
  {
    seq(|ps|, i requires 0 <= i < |ps| => DatesIn(dates, ps[i]))
  }

  /** One period group in closed form: item `t` is `Slot(p, inside, row, t)`. */
  function Block(p: Event, inside: seq<Event>, row: int): Placed
  {
    Placed(seq(|inside| + 1, t requires 0 <= t <= |inside| => Slot(p, inside, row, t)), row + Gap(|inside|))
  }

  /** The periods loop over precomputed groups: each period followed by its group `gs[i]`. */
  function Chain(ps: seq<Event>, gs: seq<seq<Event>>, row: int): Placed
    requires |gs| == |ps|
    decreases |ps|
  {
    if |ps| == 0 then Placed([], row)
    else
      var first := Block(ps[0], gs[0], row);
      var rest := Chain(ps[1..], gs[1..], first.next);
      Placed(first.items + rest.items, rest.next)
  }

  /** The rows the first `i` groups of `gs` advance `currentRow` by. */
  function GapsBefore(gs: seq<seq<Event>>, i: nat): nat
    requires i <= |gs|
    decreases i
  {
    if i == 0 then 0 else Gap(|gs[0]|) + GapsBefore(gs[1..], i - 1)
  }

  /** The items the first `i` groups of `gs` emit: the period and the dates inside it. */
  function ItemsBefore(gs: seq<seq<Event>>, i: nat): nat
    requires i <= |gs|
    decreases i
  {
    if i == 0 then 0 else 1 + |gs[0]| + ItemsBefore(gs[1..], i - 1)
  }

  /** The periods loop is the chain over the groups of dates inside each period. */
  lemma {:induction false} ChainOf(ps: seq<Event>, dates: seq<Event>, row: int)
    ensures PlacePeriods(ps, dates, row) == Chain(ps, Insides(ps, dates), row)
    decreases |ps|
  {
    if |ps| > 0 {
      var gs := Insides(ps, dates);
      assert gs[0] == DatesIn(dates, ps[0]);
      assert gs[1..] == Insides(ps[1..], dates);
      BlockIs(ps[0], gs[0], row);
      ChainOf(ps[1..], dates, PlacePeriod(ps[0], dates, row).next);
    }
  }

  /** Chain's row and item counts. */
  lemma {:induction false} ChainNext(ps: seq<Event>, gs: seq<seq<Event>>, row: int)
    requires |gs| == |ps|
    ensures Chain(ps, gs, row).next == row + GapsBefore(gs, |gs|)
    ensures |Chain(ps, gs, row).items| == ItemsBefore(gs, |gs|)
    decreases |ps|
  {
    if |ps| > 0 {
      ChainNext(ps[1..], gs[1..], Block(ps[0], gs[0], row).next);
    }
  }

  /** The periods loop started at `row` ends at `row` plus every period's gap, after one item per
      period and one per date inside it. */
  lemma PeriodsNext(ps: seq<Event>, dates: seq<Event>, row: int)
    ensures PlacePeriods(ps, dates, row).next == row + GapsBefore(Insides(ps, dates), |ps|)
    ensures |PlacePeriods(ps, dates, row).items| == ItemsBefore(Insides(ps, dates), |ps|)
  {
    ChainOf(ps, dates, row);
    ChainNext(ps, Insides(ps, dates), row);
  }

  /** The `t`-th item of a period group started at `start`: the period's span for `t = 0`, and
      otherwise the `t`-th date inside it, two rows below the one before. */
  function Slot(p: Event, inside: seq<Event>, start: int, t: nat): Rendered
    requires t <= |inside|
  {
    if t == 0 then Rendered(p, Span(start, Max(2 * |inside| - 1, 1)))
    else Rendered(inside[t - 1], Row(start + 2 * (t - 1)))
  }

  /** A period group as `PeriodWith` builds it is its closed form `Block`. */
  lemma BlockIs(p: Event, inside: seq<Event>, row: int)
    ensures PeriodWith(p, inside, row) == Block(p, inside, row)
  {
    var r := PeriodWith(p, inside, row);
    var b := Block(p, inside, row);
    PeriodWithSpan(p, inside, row);
    forall t | 0 <= t < |r.items|
      ensures r.items[t] == b.items[t]
    {
      assert b.items[t] == Slot(p, inside, row, t);
    }
  }

  /** The first group of a chain is its head `Block`. */
  lemma ChainHeadAt(ps: seq<Event>, gs: seq<seq<Event>>, row: int, t: nat)
    requires |gs| == |ps| && 0 < |ps| && t <= |gs[0]|
    ensures t < |Chain(ps, gs, row).items|
    ensures Chain(ps, gs, row).items[t] == Slot(ps[0], gs[0], row, t)
  {
    var first := Block(ps[0], gs[0], row);
    var rest := Chain(ps[1..], gs[1..], first.next);
    assert Chain(ps, gs, row).items == first.items + rest.items;
    assert (first.items + rest.items)[t] == first.items[t];
  }

  /** Past its head `Block`, a chain is the chain of the remaining groups, started one gap lower. */
  lemma ChainTail(ps: seq<Event>, gs: seq<seq<Event>>, row: int, k: nat)
    requires |gs| == |ps| && 0 < |ps| && k < |Chain(ps[1..], gs[1..], row + Gap(|gs[0]|)).items|
    ensures 1 + |gs[0]| + k < |Chain(ps, gs, row).items|
    ensures Chain(ps, gs, row).items[1 + |gs[0]| + k] == Chain(ps[1..], gs[1..], row + Gap(|gs[0]|)).items[k]
  {
    var first := Block(ps[0], gs[0], row);
    var rest := Chain(ps[1..], gs[1..], first.next);
    assert Chain(ps, gs, row).items == first.items + rest.items;
    assert (first.items + rest.items)[|first.items| + k] == rest.items[k];
  }

  /** Item `t` of the `i`-th group of the chain is that group's `Slot`, counting the items and
      the rows of the groups before it. */
  lemma {:induction false} ChainPlaced(ps: seq<Event>, gs: seq<seq<Event>>, row: int, i: nat, t: nat)
    requires |gs| == |ps| && i < |ps| && t <= |gs[i]|
    ensures ItemsBefore(gs, i) + t < |Chain(ps, gs, row).items|
    ensures Chain(ps, gs, row).items[ItemsBefore(gs, i) + t] == Slot(ps[i], gs[i], row + GapsBefore(gs, i), t)
    decreases i
  {
    if i == 0 {
      ChainHeadAt(ps, gs, row, t);
    } else {
      var next := row + Gap(|gs[0]|);
      assert ps[1..][i - 1] == ps[i] && gs[1..][i - 1] == gs[i];
      ChainPlaced(ps[1..], gs[1..], next, i - 1, t);
      ChainTail(ps, gs, row, ItemsBefore(gs[1..], i - 1) + t);
      assert row + GapsBefore(gs, i) == next + GapsBefore(gs[1..], i - 1);
    }
  }

  /** The `i`-th period of the loop (counting from 0) starts at `row` plus the gaps of the periods
      before it, right after their items; the dates inside it follow as `Slot` places them. */
  lemma PeriodsPlaced(ps: seq<Event>, dates: seq<Event>, row: int, i: nat, t: nat)
    requires i < |ps| && t <= |DatesIn(dates, ps[i])|
    ensures ItemsBefore(Insides(ps, dates), i) + t < |PlacePeriods(ps, dates, row).items|
    ensures PlacePeriods(ps, dates, row).items[ItemsBefore(Insides(ps, dates), i) + t]
            == Slot(ps[i], DatesIn(dates, ps[i]), row + GapsBefore(Insides(ps, dates), i), t)
  {
    ChainOf(ps, dates, row);
    ChainPlaced(ps, Insides(ps, dates), row, i, t);
  }

  /** `items` are the dates `before` on rows 1, 3, 5, ..., then `m` further items, then the dates
      `after` on rows `row`, `row + 2`, ... */
  ghost predicate Framed(items: seq<Rendered>, before: seq<Event>, m: nat, after: seq<Event>, row: int) {
    && |items| == |before| + m + |after|
    && (forall t :: 0 <= t < |before| ==> items[t] == Rendered(before[t], Row(1 + 2 * t)))
    && (forall t :: 0 <= t < |after| ==> items[|before| + m + t] == Rendered(after[t], Row(row + 2 * t)))
  }

  /** The `t`-th date of a group placed after `head`. */
  lemma GroupAfter(head: seq<Rendered>, ds: seq<Event>, row: int, t: int)
    requires 0 <= t < |ds|
    ensures (head + PlaceGroup(ds, row).items)[|head| + t] == Rendered(ds[t], Row(row + 2 * t))
  {
  }

  /** `Framed` read off one sequence holds of any sequence equal to it. */
  lemma FramedSame(a: seq<Rendered>, b: seq<Rendered>, before: seq<Event>, m: nat, after: seq<Event>, row: int)
    requires a == b && Framed(a, before, m, after, row)
    ensures Framed(b, before, m, after, row)
  {
  }

  /** The early and late groups around any middle part: the early dates from row 1, and the late
      ones from wherever the middle part leaves `currentRow`. */
  lemma AroundGroups(before: seq<Event>, mid: seq<Rendered>, after: seq<Event>, row: int)
    ensures var pre := PlaceGroup(before, 1);
            var post := PlaceGroup(after, row);
            && Framed(pre.items + mid + post.items, before, |mid|, after, row)
            && pre.next == 1 + Used(|before|)
            && post.next == row + Used(|after|)
  {
    var pre := PlaceGroup(before, 1);
    var post := PlaceGroup(after, row);
    var items := pre.items + mid + post.items;
    forall t | 0 <= t < |before|
      ensures items[t] == Rendered(before[t], Row(1 + 2 * t))
    {
      assert items[t] == pre.items[t];
    }
    forall t | 0 <= t < |after|
      ensures items[|before| + |mid| + t] == Rendered(after[t], Row(row + 2 * t))
    {
      GroupAfter(pre.items + mid, after, row, t);
    }
    assert Framed(items, before, |mid|, after, row);
  }

  /** The dates placed before the first period. */
  function Early(es: seq<Event>): seq<Event>
    requires |Periods(es)| > 0
  {
    DatesBefore(Dates(es), Periods(es)[0])
  }

  /** The dates placed after the last period. */
  function Late(es: seq<Event>): seq<Event>
    requires |Periods(es)| > 0
  {
    var ps := Periods(es);
    DatesAfter(Dates(es), ps[|ps| - 1])
  }

  /** The row the first late date takes: past the early dates and every period's gap. */
  function LateStart(es: seq<Event>): int
    requires |Periods(es)| > 0
  {
    1 + Used(|Early(es)|) + GapsBefore(Insides(Periods(es), Dates(es)), |Periods(es)|)
  }

  /**
   * The whole placement in closed form when there is a period: the dates before the first period
   * from row 1, then one item per period and per date inside it, then the dates after the last
   * period from `1 + Used(|before|)` plus every period's gap, where `currentRow` ends.
   */
  lemma PlaceStages(es: seq<Event>)
    requires |Periods(es)| > 0
    ensures Framed(Emitted(es), Early(es), ItemsBefore(Insides(Periods(es), Dates(es)), |Periods(es)|), Late(es), LateStart(es))
    ensures Place(es).next == LateStart(es) + Used(|Late(es)|)
  {
    var ps := Periods(es);
    var dates := Dates(es);
    var before := DatesBefore(dates, ps[0]);
    var after := DatesAfter(dates, ps[|ps| - 1]);
    var pre := PlaceGroup(before, 1);
    var mid := PlacePeriods(ps, dates, pre.next);
    var post := PlaceGroup(after, mid.next);
    assert Place(es) == Placed(pre.items + mid.items + post.items, post.next);
    AroundGroups(before, mid.items, after, mid.next);
    PeriodsNext(ps, dates, pre.next);
    var m := ItemsBefore(Insides(ps, dates), |ps|);
    var last := 1 + Used(|before|) + GapsBefore(Insides(ps, dates), |ps|);
    assert |mid.items| == m && mid.next == last;
    assert Emitted(es) == pre.items + mid.items + post.items;
    assert Early(es) == before && Late(es) == after && LateStart(es) == last;
    FramedSame(pre.items + mid.items + post.items, Emitted(es), Early(es), m, Late(es), LateStart(es));
  }

  /** Between the early and late dates the whole placement holds the periods loop, started on
      the row after the early dates' group. */
  lemma PlaceMiddle(es: seq<Event>)
    requires |Periods(es)| > 0
    ensures var loop := PlacePeriods(Periods(es), Dates(es), 1 + Used(|Early(es)|));
            && |Early(es)| + |loop.items| <= |Emitted(es)|
            && Emitted(es)[|Early(es)|..|Early(es)| + |loop.items|] == loop.items
  {
    var pre := PlaceGroup(Early(es), 1);
    assert pre.next == 1 + Used(|Early(es)|);
    var mid := PlacePeriods(Periods(es), Dates(es), pre.next);
    var items := pre.items + mid.items + PlaceGroup(Late(es), mid.next).items;
    MiddleOf(pre.items, mid.items, PlaceGroup(Late(es), mid.next).items);
    assert Emitted(es) == items;
  }

  /** The middle part of a three-part concatenation. */
  lemma MiddleOf<T>(a: seq<T>, b: seq<T>, c: seq<T>)
    ensures |a| + |b| <= |a + b + c|
    ensures (a + b + c)[|a|..|a| + |b|] == b
  {
    assert (a + b + c)[|a|..|a| + |b|] == (a + b)[|a|..];
  }

  /** With a period, the first item is on row 1: the first early date, or else the first period. */
  lemma FirstOnRowOne(es: seq<Event>)
    requires |Periods(es)| > 0
    ensures |Emitted(es)| > 0
    ensures match Emitted(es)[0].placement
            case Row(r) => r == 1 && |Early(es)| > 0
            case Span(s, _) => s == 1 && |Early(es)| == 0
            case Auto => false
  {
    PlaceStages(es);
    if |Early(es)| == 0 {
      PlaceMiddle(es);
      PeriodsPlaced(Periods(es), Dates(es), 1, 0, 0);
    }
  }

  // ---------------------------------------------------------------------------------------------
  // How often each event is emitted.

  /** `m` for every period of `ps` (counted with repetition) whose range contains the date `d`:
      the copies of `d` the period groups emit when `d` occurs `m` times among the dates. */
  function CopiesInPeriods(ps: seq<Event>, d: Event, m: nat): nat
    decreases |ps|
  {
    if |ps| == 0 then 0
    else (if InPeriod(d, ps[0]) then m else 0) + CopiesInPeriods(ps[1..], d, m)
  }

  lemma DatesInCount(dates: seq<Event>, p: Event, x: Event)
    ensures multiset(DatesIn(dates, p))[x] == if InPeriod(x, p) then multiset(dates)[x] else 0
  {
    FilterCount(dates, d => InPeriod(d, p), x);
  }

  lemma DatesBeforeAfterCount(dates: seq<Event>, first: Event, last: Event, x: Event)
    ensures multiset(DatesBefore(dates, first))[x] == if BeforePeriod(x, first) then multiset(dates)[x] else 0
    ensures multiset(DatesAfter(dates, last))[x] == if AfterPeriod(x, last) then multiset(dates)[x] else 0
  {
    FilterCount(dates, d => BeforePeriod(d, first), x);
    FilterCount(dates, d => AfterPeriod(d, last), x);
  }

  lemma {:induction false} GroupsCount(ps: seq<Event>, dates: seq<Event>, x: Event)
    ensures multiset(Groups(ps, dates))[x] ==
              multiset(ps)[x] + CopiesInPeriods(ps, x, multiset(dates)[x])
    decreases |ps|
  {
    if |ps| > 0 {
      var din := DatesIn(dates, ps[0]);
      var rest := Groups(ps[1..], dates);
      GroupsCount(ps[1..], dates, x);
      assert multiset(Groups(ps, dates)) == multiset([ps[0]]) + multiset(din) + multiset(rest);
      assert ps == [ps[0]] + ps[1..];
      assert multiset(ps) == multiset([ps[0]]) + multiset(ps[1..]);
      DatesInCount(dates, ps[0], x);
    }
  }

  /**
   * With at least one period, a period is emitted as often as it occurs in the input; a date once
   * per group whose predicate it satisfies (before the first period, inside each period, after
   * the last period); any other event never.
   */
  lemma LayoutMultiplicity(es: seq<Event>, x: Event)
    requires |Periods(es)| > 0
    ensures var ps := Periods(es);
            var n := multiset(EventsOf(Emitted(es)))[x];
            if IsPeriod(x) then n == multiset(es)[x]
            else if IsDate(x) then
              var m := multiset(es)[x];
              n == (if BeforePeriod(x, ps[0]) then m else 0)
                   + CopiesInPeriods(ps, x, m)
                   + (if AfterPeriod(x, ps[|ps| - 1]) then m else 0)
            else n == 0
  {
    var ps := Periods(es);
    var dates := Dates(es);
    var before := DatesBefore(dates, ps[0]);
    var after := DatesAfter(dates, ps[|ps| - 1]);
    LayoutEmissionOrder(es);
    assert multiset(EmissionOrder(es)) == multiset(before) + multiset(Groups(ps, dates)) + multiset(after);
    GroupsCount(ps, dates, x);
    if !IsDate(x) {
      ZeroCopies(ps, x);
    }
    FilterCount(es, IsPeriod, x);
    FilterCount(es, IsDate, x);
    DatesBeforeAfterCount(dates, ps[0], ps[|ps| - 1], x);
  }

  lemma {:induction false} ZeroCopies(ps: seq<Event>, d: Event)
    ensures CopiesInPeriods(ps, d, 0) == 0
    decreases |ps|
  {
    if |ps| > 0 {
      ZeroCopies(ps[1..], d);
    }
  }

  lemma {:induction false} NoneContaining(ps: seq<Event>, d: Event, m: nat)
    requires forall i :: 0 <= i < |ps| ==> !InPeriod(d, ps[i])
    ensures CopiesInPeriods(ps, d, m) == 0
    decreases |ps|
  {
    if |ps| > 0 {
      NoneContaining(ps[1..], d, m);
    }
  }

  lemma {:induction false} OneContaining(ps: seq<Event>, d: Event, m: nat, j: nat)
    requires j < |ps| && InPeriod(d, ps[j])
    ensures CopiesInPeriods(ps, d, m) >= m
    decreases |ps|
  {
    if j > 0 {
      assert ps[1..][j - 1] == ps[j];
      OneContaining(ps[1..], d, m, j - 1);
    }
  }

  lemma {:induction false} TwoContaining(ps: seq<Event>, d: Event, m: nat, i: nat, j: nat)
    requires i < j < |ps| && InPeriod(d, ps[i]) && InPeriod(d, ps[j])
    ensures CopiesInPeriods(ps, d, m) >= 2 * m
    decreases |ps|
  {
    assert ps[1..][j - 1] == ps[j];
    if i == 0 {
      OneContaining(ps[1..], d, m, j - 1);
    } else {
      assert ps[1..][i - 1] == ps[i];
      TwoContaining(ps[1..], d, m, i - 1, j - 1);
    }
  }

  /** A date that lies after the first period's start, before the last period's end, and in no
      period is not rendered at all. */
  lemma DateBetweenPeriodsDropped(es: seq<Event>, d: Event)
    requires |Periods(es)| > 0 && IsDate(d)
    requires !BeforePeriod(d, Periods(es)[0]) && !AfterPeriod(d, Periods(es)[|Periods(es)| - 1])
    requires forall i :: 0 <= i < |Periods(es)| ==> !InPeriod(d, Periods(es)[i])
    ensures d !in EventsOf(Emitted(es))
  {
    LayoutMultiplicity(es, d);
    NoneContaining(Periods(es), d, multiset(es)[d]);
  }

  /** A date inside two periods is rendered at least twice: nothing removes it after the first. */
  lemma OverlapDuplicatesDate(es: seq<Event>, d: Event, i: nat, j: nat)
    requires IsDate(d) && d in es
    requires i < j < |Periods(es)| && InPeriod(d, Periods(es)[i]) && InPeriod(d, Periods(es)[j])
    ensures multiset(EventsOf(Emitted(es)))[d] >= 2
  {
    LayoutMultiplicity(es, d);
    TwoContaining(Periods(es), d, multiset(es)[d], i, j);
  }

  /** Once a period exists, an event whose type is neither date nor period is not rendered. */
  lemma UnknownKindDropped(es: seq<Event>, x: Event)
    requires |Periods(es)| > 0 && x.kind.Unknown?
    ensures x !in EventsOf(Emitted(es))
  {
    LayoutMultiplicity(es, x);
  }
}

=== FILE: membership.dfy ===
/**
 * How a date relates to a period: both labels are reduced to day ordinals and compared as integers.
 * Month, year and time of day play no part.
 */
module Membership {
  import opened Events
  import opened Ordinals

  /** `isDateInPeriod`: the date's day lies in the period's inclusive day range. */
  predicate InPeriod(d: Event, p: Event) {
    DayOf(p.startDate) <= DayOf(d.startDate) <= DayOf(p.endDate)
  }

  /** `isDateBeforePeriod`: the date's day is strictly below the period's start day. */
  predicate BeforePeriod(d: Event, p: Event) {
    DayOf(d.startDate) < DayOf(p.startDate)
  }

  /** `isDateAfterPeriod`: the date's day is strictly above the period's end day. */
  predicate AfterPeriod(d: Event, p: Event) {
    DayOf(d.startDate) > DayOf(p.endDate)
  }

  /** For a well-ordered period the three predicates partition the dates: exactly one holds. */
  lemma ExactlyOneRelation(d: Event, p: Event)
    requires DayOf(p.startDate) <= DayOf(p.endDate)
    ensures BeforePeriod(d, p) || InPeriod(d, p) || AfterPeriod(d, p)
    ensures !(BeforePeriod(d, p) && InPeriod(d, p))
    ensures !(InPeriod(d, p) && AfterPeriod(d, p))
    ensures !(BeforePeriod(d, p) && AfterPeriod(d, p))
  {
  }

  /** The order of the period's labels is not checked: a period whose end day precedes its start
      day contains no date, and a date between the two days is both before and after it. */
  lemma InvertedPeriod(d: Event, p: Event)
    requires DayOf(p.endDate) < DayOf(p.startDate)
    ensures !InPeriod(d, p)
    ensures DayOf(p.endDate) < DayOf(d.startDate) < DayOf(p.startDate) ==>
              BeforePeriod(d, p) && AfterPeriod(d, p)
  {
  }

  /** A date whose label has no ordinal counts as day 0, so it lies before every period that
      starts on a day above 0. */
  lemma UnparsedDateIsEarly(d: Event, p: Event)
    requires forall i, j :: !MatchesAt(Lower(d.startDate), i, j)
    requires DayOf(p.startDate) > 0
    ensures BeforePeriod(d, p)
  {
    ExtractDayIsFirstMatch(Lower(d.startDate));
  }

  /** A period labelled from "1st" to "10th" contains day 5, has day 0 before it and day 15
      after it. */
  lemma FirstToTenth(d: Event, p: Event)
    requires p.startDate == "1st" && p.endDate == "10th"
    ensures DayOf(d.startDate) == 5 ==> InPeriod(d, p)
    ensures DayOf(d.startDate) == 0 ==> BeforePeriod(d, p)
    ensures DayOf(d.startDate) == 15 ==> AfterPeriod(d, p)
  {
    var a := "1st";
    assert a[1..3] == "st";
    DayOfAt(a, 0, 1);
    assert a[0..1] == "1";

    var b := "10th";
    assert b[2..4] == "th";
    DayOfAt(b, 0, 2);
    assert b[0..2] == "10";
    assert "10"[..1] == "1";
    assert DigitsValue("1") == 1;
  }
}

=== FILE: options.dfy ===
/** A value that may be missing: an image with no rotation, the carousel of an event without
    images, an ordinal day not found in a date text, or the carousel of a timeline item. */
module Options {

  datatype Option<+T> = None | Some(value: T)
}

=== FILE: ordinals.dfy ===
/**
 * Day-ordinal extraction from free-text date labels ("January 4th", "Evening of January 4th").
 * The page lower-cases a label and takes the first match of the pattern
 * "one or more decimal digits immediately followed by st, nd, rd or th"; the digits are the day.
 * There is no word boundary, so "5stars" yields 5 as well.
 */
module Ordinals {
  import opened Options

  predicate IsDigit(c: char) { '0' <= c <= '9' }

  predicate IsUpper(c: char) { 'A' <= c <= 'Z' }

  /** ASCII lower-casing of one character. */
  function LowerChar(c: char): (r: char)
    ensures !IsUpper(r)
    ensures IsDigit(r) <==> IsDigit(c)
    ensures !IsUpper(c) ==> r == c
  {
    if IsUpper(c) then (c as int - 'A' as int + 'a' as int) as char else c
  }

  /** An upper-case ASCII letter becomes the lower-case letter in the same alphabet position. */
  lemma LowerCharFolds(c: char)
    requires IsUpper(c)
    ensures LowerChar(c) as int == c as int - 'A' as int + 'a' as int
  {
  }

  /** `toLowerCase`, restricted to ASCII letters. */
  function Lower(s: string): (r: string)
    ensures |r| == |s|
    ensures forall k :: 0 <= k < |s| ==> r[k] == LowerChar(s[k])
  {
    seq(|s|, k requires 0 <= k < |s| => LowerChar(s[k]))
  }

  /** One of the four ordinal suffixes starts at position `j`. */
  predicate SuffixAt(s: string, j: nat) {
    j + 2 <= |s| &&
    var t := s[j..j + 2];
    t == "st" || t == "nd" || t == "rd" || t == "th"
  }

  /** Reference semantics of one regular-expression match: `s[i..j]` is a non-empty run of
      digits (the `\d+` group) and a suffix follows it at `j`. */
  ghost predicate MatchesAt(s: string, i: int, j: int) {
    0 <= i < j <= |s| &&
    (forall k :: i <= k < j ==> IsDigit(s[k])) &&
    SuffixAt(s, j)
  }

  /** The match the search reports: the leftmost starting position, as for `String.prototype.match`. */
  ghost predicate FirstMatch(s: string, i: int, j: int) {
    MatchesAt(s, i, j) && forall i', j' :: 0 <= i' < i ==> !MatchesAt(s, i', j')
  }

  /** The end of the maximal digit run that starts at `i`. */
  function RunEnd(s: string, i: nat): (j: nat)
    requires i <= |s|
    ensures i <= j <= |s|
    ensures forall k :: i <= k < j ==> IsDigit(s[k])
    ensures j == |s| || !IsDigit(s[j])
    decreases |s| - i
  {
    if i < |s| && IsDigit(s[i]) then RunEnd(s, i + 1) else i
  }

  lemma SuffixIsNotDigit(s: string, j: nat)
    requires SuffixAt(s, j)
    ensures !IsDigit(s[j])
  {
    assert s[j] == s[j..j + 2][0];
  }

  /** The `\d+` group of a match is maximal, so the match's start fixes its end. */
  lemma MatchEndUnique(s: string, i: int, j: int)
    requires MatchesAt(s, i, j)
    ensures forall j' :: MatchesAt(s, i, j') ==> j' == j
  {
    forall j' | MatchesAt(s, i, j')
      ensures j' == j
    {
      if j' < j {
        SuffixIsNotDigit(s, j');
      } else if j < j' {
        SuffixIsNotDigit(s, j);
      }
    }
  }

  /** No match can start inside a digit run `s[i..j]` that is maximal on the right and is not
      followed by a suffix: a shorter `\d+` is followed by a digit, a longer one crosses `s[j]`. */
  lemma NoMatchInRun(s: string, i: nat, j: nat)
    requires i <= j <= |s|
    requires forall k :: i <= k < j ==> IsDigit(s[k])
    requires j == |s| || !IsDigit(s[j])
    requires !SuffixAt(s, j)
    ensures forall a, b :: i <= a < j ==> !MatchesAt(s, a, b)
  {
    forall a, b | i <= a < j && MatchesAt(s, a, b)
      ensures false
    {
      if b < j {
        SuffixIsNotDigit(s, b);
      }
    }
  }

  /** The search for the leftmost match at or after `k`, as the pair of its digit run's bounds:
      a digit run followed by a suffix is reported, any other run is skipped as a whole. */
  function FindFrom(s: string, k: nat): (r: Option<(nat, nat)>)
    requires k <= |s|
    ensures r.Some? ==> k <= r.value.0 < r.value.1 <= |s|
    decreases |s| - k
  {
    if k == |s| then None
    else if !IsDigit(s[k]) then FindFrom(s, k + 1)
    else
      var j := RunEnd(s, k);
      if SuffixAt(s, j) then Some((k, j)) else FindFrom(s, j)
  }

  /** The search agrees with the regular-expression semantics: it reports the leftmost match at
      or after `k` (whose end is the only possible one), and nothing exactly when there is none. */
  lemma {:induction false} FindFromFindsFirst(s: string, k: nat)
    requires k <= |s|
    ensures var r := FindFrom(s, k);
            && (r.None? ==> forall i, j :: k <= i ==> !MatchesAt(s, i, j))
            && (r.Some? ==> MatchesAt(s, r.value.0, r.value.1))
            && (r.Some? ==> forall i, j :: k <= i < r.value.0 ==> !MatchesAt(s, i, j))
            && (r.Some? ==> forall j :: MatchesAt(s, r.value.0, j) ==> j == r.value.1)
    decreases |s| - k
  {
    if k == |s| {
    } else if !IsDigit(s[k]) {
      FindFromFindsFirst(s, k + 1);
    } else {
      var j := RunEnd(s, k);
      if SuffixAt(s, j) {
        MatchEndUnique(s, k, j);
      } else {
        NoMatchInRun(s, k, j);
        FindFromFindsFirst(s, j);
      }
    }
  }

  /** The value of a decimal digit. */
  function DigitValue(c: char): nat
  {
    if IsDigit(c) then c as int - '0' as int else 0
  }

  /** `parseInt` of a run of decimal digits. */
  function DigitsValue(t: string): nat
  {
    if |t| == 0 then 0 else 10 * DigitsValue(t[..|t| - 1]) + DigitValue(t[|t| - 1])
  }

  /** `extractDay` on an already lower-cased label: the value of the first match, or 0 without one. */
  function ExtractDay(s: string): nat
  {
    match FindFrom(s, 0)
    case None => 0
    case Some((i, j)) => DigitsValue(s[i..j])
  }

  /** `extractDay` returns the value of the digits of the leftmost match, and 0 when the label
      has no match. */
  lemma ExtractDayIsFirstMatch(s: string)
    ensures (forall i, j :: !MatchesAt(s, i, j)) ==> ExtractDay(s) == 0
    ensures forall i, j :: FirstMatch(s, i, j) ==> ExtractDay(s) == DigitsValue(s[i..j])
    ensures (exists i, j :: MatchesAt(s, i, j)) ==> exists i, j :: FirstMatch(s, i, j)
  {
    FindFromFindsFirst(s, 0);
    var r := FindFrom(s, 0);
    if r.Some? {
      var i, j := r.value.0, r.value.1;
      assert FirstMatch(s, i, j);
      forall i', j' | FirstMatch(s, i', j')
        ensures i' == i && j' == j
      {
      }
    }
  }

  /** The day ordinal of a label as the membership predicates compute it. */
  function DayOf(text: string): nat
  {
    ExtractDay(Lower(text))
  }

  /** Lower-casing is idempotent: a lower-cased label has nothing left to fold. */
  lemma LowerIdempotent(s: string)
    ensures Lower(Lower(s)) == Lower(s)
  {
    forall k | 0 <= k < |s|
      ensures Lower(Lower(s))[k] == Lower(s)[k]
    {
      assert !IsUpper(Lower(s)[k]);
    }
  }

  /** The ordinal ignores letter case: a label and its lower-cased form have the same day. */
  lemma DayOfIgnoresCase(text: string)
    ensures DayOf(Lower(text)) == DayOf(text)
  {
    LowerIdempotent(text);
  }

  /** Lower-casing leaves digits in place, so a digit run followed by an upper-case suffix
      ("4TH") still matches. */
  lemma LowerKeepsMatch(s: string, i: nat, j: nat)
    requires i < j && j + 2 <= |s|
    requires forall k :: i <= k < j ==> IsDigit(s[k])
    requires var t := Lower(s[j..j + 2]); t == "st" || t == "nd" || t == "rd" || t == "th"
    ensures MatchesAt(Lower(s), i, j)
  {
    assert Lower(s)[j..j + 2] == Lower(s[j..j + 2]);
  }

  /** A label with no digit before position `n` has no match starting before `n`. */
  lemma NoDigitsNoMatch(s: string, n: nat)
    requires n <= |s|
    requires forall k :: 0 <= k < n ==> !IsDigit(s[k])
    ensures forall i, j :: 0 <= i < n ==> !MatchesAt(s, i, j)
  {
    forall i, j | 0 <= i < n
      ensures !MatchesAt(s, i, j)
    {
      assert !IsDigit(s[i]);
    }
  }

  /** A lower-case suffix is left as it is by lower-casing. */
  lemma SuffixSurvivesLower(text: string, j: nat)
    requires SuffixAt(text, j)
    ensures SuffixAt(Lower(text), j)
  {
    var s := Lower(text);
    SuffixIsNotDigit(text, j);
    assert s[j..j + 2] == text[j..j + 2] by {
      var t := text[j..j + 2];
      assert t[0] == text[j] && t[1] == text[j + 1];
      assert !IsUpper(text[j]) && !IsUpper(text[j + 1]);
    }
  }

  /** The day of a label whose first digit run `text[i..j]` is followed by a suffix, in either
      letter case. */
  lemma DayOfAt(text: string, i: nat, j: nat)
    requires i < j && SuffixAt(Lower(text), j)
    requires forall k :: 0 <= k < i ==> !IsDigit(text[k])
    requires forall k :: i <= k < j ==> IsDigit(text[k])
    ensures DayOf(text) == DigitsValue(text[i..j])
  {
    var s := Lower(text);
    assert forall k :: 0 <= k < |text| ==> (IsDigit(s[k]) <==> IsDigit(text[k]));
    assert forall k :: 0 <= k < |text| && IsDigit(text[k]) ==> s[k] == text[k];
    assert s[i..j] == text[i..j];
    NoDigitsNoMatch(s, i);
    assert FirstMatch(s, i, j);
    ExtractDayIsFirstMatch(s);
  }

  /** The labels the extraction is written for, and one with an upper-case suffix. */
  lemma JanuaryFourth()
    ensures DayOf("January 4th") == 4
    ensures DayOf("Evening of January 4th") == 4
    ensures DayOf("January 4TH") == 4
  {
    var u := "January 4TH";
    assert Lower(u)[9] == 't' && Lower(u)[10] == 'h';
    assert Lower(u)[9..11] == "th";
    DayOfAt(u, 8, 9);
    assert u[8..9] == "4";

    var a := "January 4th";
    assert a[9..11] == "th";
    SuffixSurvivesLower(a, 9);
    DayOfAt(a, 8, 9);
    assert a[8..9] == "4";

    var b := "Evening of January 4th";
    assert b[20..22] == "th";
    SuffixSurvivesLower(b, 20);
    DayOfAt(b, 19, 20);
    assert b[19..20] == "4";
  }

  /** The fallback to 0, and the missing word boundary: "5stars" and "x12th" match too. */
  lemma ExtractDayExamples()
    ensures DayOf("no digits here") == 0
    ensures DayOf("5stars") == 5
    ensures DayOf("x12th") == 12
  {
    var c := "no digits here";
    assert forall k :: 0 <= k < |c| ==> !IsDigit(Lower(c)[k]);
    NoDigitsNoMatch(Lower(c), |c|);
    ExtractDayIsFirstMatch(Lower(c));

    var d := "5stars";
    assert d[1..3] == "st";
    SuffixSurvivesLower(d, 1);
    DayOfAt(d, 0, 1);
    assert d[0..1] == "5";

    var e := "x12th";
    assert e[3..5] == "th";
    SuffixSurvivesLower(e, 3);
    DayOfAt(e, 1, 3);
    assert e[1..3] == "12";
    assert "12"[..1] == "1";
    assert DigitsValue("1") == 1;
  }
}

=== FILE: seqs.dfy ===
/** Sequence helpers shared by the layout model. */
module Seqs {

  /** `Array.prototype.filter`: the elements of `s` satisfying `f`, in their original order. */
  function Filter<T>(s: seq<T>, f: T -> bool): (r: seq<T>)
    ensures |r| <= |s|
    ensures forall i :: 0 <= i < |r| ==> f(r[i])
    decreases |s|
  {
    if |s| == 0 then [] else (if f(s[0]) then [s[0]] else []) + Filter(s[1..], f)
  }

  /** Filtering distributes over concatenation, so the kept elements stay in input order. */
  lemma {:induction false} FilterConcat<T>(a: seq<T>, b: seq<T>, f: T -> bool)
    ensures Filter(a + b, f) == Filter(a, f) + Filter(b, f)
    decreases |a|
  {
    if |a| > 0 {
      assert (a + b)[1..] == a[1..] + b;
      FilterConcat(a[1..], b, f);
    } else {
      assert a + b == b;
    }
  }

  /** A single element is kept exactly when it satisfies `f`. */
  lemma FilterSingle<T>(x: T, f: T -> bool)
    ensures Filter([x], f) == if f(x) then [x] else []
  {
    assert [x][1..] == [];
  }

  /** Filtering keeps every occurrence of an element that satisfies `f` and drops every
      occurrence of one that does not. */
  lemma {:induction false} FilterCount<T>(s: seq<T>, f: T -> bool, x: T)
    ensures multiset(Filter(s, f))[x] == if f(x) then multiset(s)[x] else 0
    decreases |s|
  {
    if |s| > 0 {
      FilterCount(s[1..], f, x);
      assert s == [s[0]] + s[1..];
    }
  }

  /** Nothing survives a filter that no element satisfies, and something survives one that some
      element satisfies. */
  lemma FilterEmpty<T>(s: seq<T>, f: T -> bool)
    ensures (forall i :: 0 <= i < |s| ==> !f(s[i])) <==> |Filter(s, f)| == 0
  {
    if exists i :: 0 <= i < |s| && f(s[i]) {
      var i :| 0 <= i < |s| && f(s[i]);
      FilterCount(s, f, s[i]);
    } else {
      FilterNone(s, f);
    }
  }

  lemma {:induction false} FilterNone<T>(s: seq<T>, f: T -> bool)
    requires forall i :: 0 <= i < |s| ==> !f(s[i])
    ensures Filter(s, f) == []
    decreases |s|
  {
    if |s| > 0 {
      FilterNone(s[1..], f);
    }
  }
}
